=== FILE: README.md ===
# Online quiz app: a Dafny model of its core decisions

This project models the decision logic of a small quiz service. The backend is a Flask app, `backend/app.py`. The client is plain JavaScript: `frontend/js/quiz.js` and `frontend/js/utils.js`. The model proves properties of those decisions.

What is modelled:

- **Scoring** (`submit_quiz`). A submitted `{question_id: option}` object is scored against the question table. The Result row is attributed to the acting user. An empty answer object faults only after that row has been written.
- **Token service and gates** (`token_required`, `admin_required`, token issuance in `login`). They are modelled as pure decision functions:
  - JWT signing and decoding are function parameters, and so is bcrypt;
  - the store connection is a boolean;
  - the users table is a sequence of rows.
- **Leaderboard** (the SQL of `get_leaderboard`). The modelled steps are:
  - filter by category;
  - join with users;
  - group by user;
  - aggregate each column on its own;
  - order by score descending, then time ascending;
  - keep the first 20 rows.
- **Field checks and inserts** of `register` and `add_category`.
- **Quiz page navigation state** (`displayQuestion`, `selectAnswer`, `goToPreviousQuestion`, `goToNextQuestion`, the button flags). This includes the answer object that `submitQuiz` sends.
- **Client helpers**: `formatTime`, the headers `apiCall` sends, and the error message `apiCall` throws.

Modules, one per file:

| file | module | contents |
|---|---|---|
| options.dfy | `Options` | `Option<T>` and the `.get(key, fallback)` default |
| http.dfy | `Http` | The status-and-message body shared by every non-data response |
| strings.dfy | `Strings` | Python's `str.split`, JavaScript's `toString` and `padStart`, and decimal parsing (used to state round trips) |
| store.dfy | `Store` | Table rows: `User`, `Category`, `Question`, `Result`. Also the single-row lookups. |
| scoring.dfy | `Scoring` | `submit_quiz` |
| auth.dfy | `Auth` | `token_required`, `admin_required`, `login` |
| accounts.dfy | `Accounts` | `register`, `add_category` |
| leaderboard.dfy | `Leaderboard` | The leaderboard query |
| quiz_nav.dfy | `QuizNav` | Navigation state of the quiz page and the submitted answer object |
| client_utils.dfy | `ClientUtils` | `formatTime`, `apiCall` headers and error mapping |

Notable behaviour of the code, which the model reproduces:

- **An empty answer object.** `(score / total_questions) * 100` raises `ZeroDivisionError` after the Result row has been committed. The client receives a 500.
- **Unknown question ids.** They count toward `total_questions`, because that is `len(answers)`.
- **Admin gate without a store connection.** It answers 500 "Database connection failed" and never runs the handler.
- **The word before the first space of the `Authorization` header.** It is never compared with "Bearer". The token is whatever lies between the first and the second space.

## Model

| member | source | states |
|---|---|---|
| Scoring.ComputeScore | backend/app.py:200-210 | The loop's `total_questions` is the number of submitted entries, whether or not their lookups succeed. Its score equals the sum definition `ScoreOf`: the points of every entry whose id is found and whose option equals the stored correct answer. |
| Scoring.ScoreOrderIndependent | backend/app.py:203-210 | Iteration order does not matter. Two answer lists with the same entries in any order get the same score. |
| Scoring.UnknownIdsSkipped | backend/app.py:208-210 | Entries whose question id does not exist contribute nothing. Dropping them leaves the score unchanged. |
| Scoring.AnswerEffect | backend/app.py:208-210 | One more entry adds the question's points exactly when the id is found and the option is correct. Otherwise it adds nothing. |
| Scoring.SubmitQuiz | backend/app.py:189-227 | <ul><li>Without a connection: 500 and nothing stored.</li><li>Without an `answers` field: a fault before anything is stored.</li><li>Otherwise exactly one Result row is appended. It holds the acting user, the category, the score, `len(answers)`, `time_taken` (default 0) and the insertion time.</li><li>The response is a score only when the map is non-empty. An empty map faults after the row is stored.</li></ul> |
| Scoring.SubmissionAttributedToActingUser | backend/app.py:213-216 | The stored row's user is the id the token gate passed in. Two submissions differing only in the acting user store rows differing only in `userId`. |
| Scoring.KnownAndUnknownExample | backend/app.py:200-210 | One correct known answer plus one unknown id scores the question's points, with `total_questions` 2. |
| Store.FindUser | backend/app.py:62-63 | `fetchone` of the user query finds the first row with the id, and finds something exactly when such a row exists. |
| Store.Usernames | backend/app.py:244 | The join sees a username for an id exactly when the users table has a row with that id, and it is that row's username. |
| Store.FindQuestion | backend/app.py:204-208 | The question lookup finds a row with the id exactly when one exists. |
| Strings.Split | backend/app.py:46 | `split(' ')` yields one more field than there are separators, and no field contains the separator. |
| Strings.SplitJoin | backend/app.py:46 | Splitting separator-free fields joined by the separator gives back the fields. |
| Strings.Decimal | frontend/js/utils.js:46 | `toString` of a non-negative number is at least one digit, without leading zeros, and one digit exactly below 10. |
| Strings.IntToString | frontend/js/utils.js:46 | <ul><li>For i >= 0 the text is all digits, parses back to i and has no leading zero.</li><li>For i < 0 it is '-' followed by at least one digit, and the digits parse back to -i.</li></ul> |
| Strings.PadStart | frontend/js/utils.js:46 | `padStart` reaches the width, keeps the whole original string at the end, fills only on the left, and never truncates. |
| Strings.ParseDecimalInverse | frontend/js/utils.js:46 | Reading the digits of `toString` back gives the number. |
| Auth.BearerToken | backend/app.py:46 | `split(' ')[1]` exists exactly when the header contains a space. It is then the text that starts right after the first space and runs up to the next space or the end of the header. |
| Auth.TokenGate | backend/app.py:38-53 | <ul><li>"Token is missing" exactly when the header is absent or empty.</li><li>Every other rejection is "Token is invalid".</li><li>The handler runs exactly when the header has a space, the token decodes and its claims carry `user_id`. It runs for that user id.</li></ul> |
| Auth.HeaderWithoutSpaceInvalid | backend/app.py:45-50 | A non-empty header without a space is "Token is invalid" whatever the decoder does. |
| Auth.SchemeIgnored | backend/app.py:46 | Any two scheme words before the first space give the same gate outcome. |
| Auth.BearerRoundTrip | backend/app.py:46 | The extraction applied to "Bearer " + t returns t for every non-empty t without a space. |
| Auth.GateAcceptsBearer | backend/app.py:45-52 | A bearer header whose token decodes to claims with `user_id` runs the handler for that id. |
| Auth.AdminGate | backend/app.py:55-71 | <ul><li>No connection: 500.</li><li>The handler runs, for the same user, exactly when the connection exists and the first user row with the id has role "admin".</li><li>Every other outcome is 403.</li></ul> |
| Auth.AdminRoute | backend/app.py:287-289 | On a stacked admin route a token rejection passes through unchanged. The handler runs only if both gates let it through. |
| Auth.AuthenticationBeforeStore | backend/app.py:287-289 | A missing or invalid token gives the same 401 whether or not the store is reachable and whatever it holds. |
| Auth.AdminFailsClosed | backend/app.py:58-70 | Without a store connection an admin route never runs its handler. |
| Auth.FirstLoginMatch | backend/app.py:115-119 | The first row whose username or email equals the submitted name is found. No earlier row matches. |
| Auth.FindLogin | backend/app.py:115-119 | A row is found exactly when the name is present and some row matches it in either column. It is the first such row. |
| Auth.IssueClaims | backend/app.py:125-130 | The claims carry the row's id, username and role. `exp` is the issue time plus 86400 seconds. |
| Auth.Login | backend/app.py:104-150 | <ul><li>No connection: 500.</li><li>A token is issued exactly when a row matches and bcrypt accepts the password against that row's hash.</li><li>The token is for that same found row and encodes its claims.</li><li>No match, or a wrong password for the found row, gives 401 "Invalid credentials".</li><li>A missing password with a matching row gives 500.</li></ul> |
| Auth.UnknownUserLikeWrongPassword | backend/app.py:121-146 | An unknown name and a wrong password for a known name give the same 401. |
| Auth.LoginTokenAuthenticates | backend/app.py:125-134 | A token from `login`, sent as "Bearer <token>", lets the handler run for the logged-in row's id. This assumes the JWT library decodes what it encoded. |
| Accounts.Register | backend/app.py:75-101 | <ul><li>Any absent or empty field gives 400 "All fields are required".</li><li>Complete fields without a connection give 500.</li><li>A taken username or email gives 400 "Username or email already exists".</li><li>Success (201) happens exactly when all fields are present, the store is reachable and neither the username nor the email is taken.</li><li>On success the message is "User registered successfully" and one row is appended with the bcrypt hash and the default role.</li><li>Every failure leaves the table unchanged.</li></ul> |
| Accounts.RegisterThenLogin | backend/app.py:84-95 | After a successful registration, logging in with the same name and password issues a token for the new row with role "user". This holds when bcrypt accepts a password against its own hash and no earlier email equals the new username. |
| Accounts.UsernameShadowedByEmail | backend/app.py:116-117 | Registering a username equal to another user's email succeeds. Logging in with it then matches the other user's row and checks against that user's hash. |
| Accounts.AddCategory | backend/app.py:290-313 | <ul><li>A falsy name gives 400 "Category name is required".</li><li>A truthy name without a connection gives 500.</li><li>A taken name gives 400 "Category already exists".</li><li>Success happens exactly when the name is truthy, the store is reachable and no category has that name.</li><li>On success the message is "Category added successfully" and one row is appended, with the description defaulting to "".</li><li>Failures leave the table unchanged.</li></ul> |
| Accounts.AddCategoryRoute | backend/app.py:287-313 | <ul><li>The categories table changes only when both the token gate and the admin gate let the request through.</li><li>A gate rejection is the response, unchanged.</li><li>When both gates pass, the response and table are exactly those of `add_category`.</li><li>The gate's and the handler's connections are separate.</li></ul> |
| Accounts.NonAdminCannotAddCategory | backend/app.py:65-66 | A valid token of a non-admin user gets 403 "Admin access required", and no category is added. |
| Leaderboard.Attempts | backend/app.py:243-246 | A user's group holds exactly the results of that user in the category. |
| Leaderboard.MaxOver | backend/app.py:239-242 | SQL `MAX` is at least every value of the group and is attained by one of them. |
| Leaderboard.MinOver | backend/app.py:241 | SQL `MIN` is at most every value of the group and is attained by one of them. |
| Leaderboard.Aggregate | backend/app.py:237-242 | The group row of a user carries that user's id and joined username. Its aggregated columns are stated by `Leaderboard.AggregateColumns`. |
| Leaderboard.AggregateColumns | backend/app.py:237-246 | <ul><li>A group row's score, total questions and completion time are maxima over the user's results in the category. Its time taken is the minimum.</li><li>Each value is attained by some result, possibly a different one per column.</li></ul> |
| Leaderboard.Players | backend/app.py:243-246 | Grouping yields each user once. A user is there exactly when they have a result in the category and a user row to join with. |
| Leaderboard.Grouped | backend/app.py:237-246 | There is one aggregated row per such user and no other rows. |
| Leaderboard.InsertPos | backend/app.py:247 | A row is inserted after every row it cannot precede and before the first one it may precede. |
| Leaderboard.Insert | backend/app.py:247 | Insertion keeps the list ordered, adds exactly the new row and keeps one row per user. |
| Leaderboard.Sort | backend/app.py:247 | Ordering by score descending, then time ascending, permutes the rows. |
| Leaderboard.Top | backend/app.py:236-249 | <ul><li>Results are joined with the users table.</li><li>At most 20 rows, one per user, ordered by score descending then time ascending.</li><li>Each row is the aggregated group of a user with a result in the category.</li><li>A user with a result who is missing only misses the cut: there are 20 rows, and each of them may precede the missing user's group.</li></ul> |
| Leaderboard.BelowTheCut | backend/app.py:247-248 | A row of the ordered list that `LIMIT 20` drops may be preceded by every kept row, and 20 rows are kept. |
| QuizNav.Display | frontend/js/quiz.js:61-64 | An index outside the loaded questions changes nothing. Otherwise the index becomes current. Answers are untouched. |
| QuizNav.SelectAnswer | frontend/js/quiz.js:110-113 | The option is recorded at the current index. The index and every other recorded answer stay as they were. |
| QuizNav.Previous | frontend/js/quiz.js:115-119 | Going back is a no-op at index 0. Otherwise it decrements the index by one. |
| QuizNav.Next | frontend/js/quiz.js:121-125 | Going forward is a no-op at the last index. Otherwise it increments the index by one. |
| QuizNav.Step | frontend/js/quiz.js:56-58 | Each listener runs its handler: <ul><li>Choosing an option records it at the displayed index and does not move.</li><li>No other event changes the answers.</li><li>A dot click shows the question it names, and an out-of-range index changes nothing.</li><li>Prev moves back one when the index is in 1..n.</li><li>Next moves forward one when the index is in -1..n-2.</li><li>`QuizNav.StepValid` states that every step keeps the state valid.</li></ul> |
| QuizNav.StepValid | frontend/js/quiz.js:61-125 | Every handler keeps the index within the loaded questions and answers at question indices. |
| QuizNav.Run | frontend/js/quiz.js:61-125 | Any sequence of user interactions from a valid state ends in a valid state. |
| QuizNav.RunInBounds | frontend/js/quiz.js:61-125 | Starting from the initial page state with questions loaded, the current index stays in [0, n) whatever the user does. |
| QuizNav.PreviousNextInverse | frontend/js/quiz.js:115-125 | Away from the ends, going back undoes going forward and vice versa. |
| QuizNav.ButtonsFor | frontend/js/quiz.js:98-100 | Prev is disabled exactly at index 0. Next is hidden exactly at the last index. Exactly one of Next and Submit is visible. |
| QuizNav.ButtonsMatchNavigation | frontend/js/quiz.js:98-125 | Prev is disabled exactly when going back does nothing. Next is hidden, and Submit shown, exactly when going forward does nothing. |
| QuizNav.FormattedAnswers | frontend/js/quiz.js:173-178 | An id is a key of the submitted object exactly when some position with that id has a truthy answer. |
| QuizNav.FormattedAnswersValues | frontend/js/quiz.js:174-177 | Each entry holds the answer of the last answered position with that id. |
| QuizNav.FormattedAnswersBound | frontend/js/quiz.js:173-178 | The object has at most as many entries as loaded questions. |
| QuizNav.FormattedAnswersSize | frontend/js/quiz.js:173-178 | With distinct question ids the object has exactly one entry per answered position. |
| QuizNav.SubmittedTotal | frontend/js/quiz.js:173-184 | The backend stores the size of the submitted object as `total_questions`, in any serialization order. That is at most the number of loaded questions. |
| QuizNav.DistinctKeysSize | backend/app.py:201 | `len(answers)` of a JSON object equals its number of distinct keys. |
| ClientUtils.FormatTime | frontend/js/utils.js:42-47 | For non-negative seconds the text is at least 5 characters long and its third-last character is the ':' before the two-character seconds field. The fields, round trip and width are stated by `ClientUtils.FormatTimeFields`, `ClientUtils.FormatTimeRoundTrip` and `ClientUtils.FormatTimeWidth`. |
| ClientUtils.JsRem | frontend/js/utils.js:45 | JavaScript's `%` is the remainder of division truncated toward zero. It is the Euclidean remainder for non-negative dividends. For negative ones it lies in (-60, 0] and the dividend equals the truncated quotient times the divisor plus it. |
| ClientUtils.FormatTimeShape | frontend/js/utils.js:44-45 | For non-negative seconds the fields are `seconds div 60` and `seconds mod 60`, the latter below 60. The minutes are below 100 exactly below 6000 seconds. |
| ClientUtils.FormatTimeFields | frontend/js/utils.js:44-46 | The text is two digit fields joined by one ':'. The minutes have at least two digits and the seconds exactly two. They read back as `seconds div 60` and `seconds mod 60`. |
| ClientUtils.FormatTimeRoundTrip | frontend/js/utils.js:42-47 | Reading "mm:ss" back as `mins * 60 + secs` gives the original non-negative number of seconds. |
| ClientUtils.FormatTimeWidth | frontend/js/utils.js:46 | Below 6000 seconds the text is exactly 5 characters. From 100 minutes on it is longer, because padding never truncates. |
| ClientUtils.RequestHeaders | frontend/js/utils.js:54-61 | <ul><li>Without `options.headers`: Content-Type is JSON, and `Authorization` is present exactly when a truthy token is stored. It then equals "Bearer " + token. There are no other headers.</li><li>With `options.headers`: that object replaces all of them.</li></ul> |
| ClientUtils.HeadersReachGate | frontend/js/utils.js:57 | The client's default headers against the backend gate: no stored token gives "Token is missing". A stored, decodable, space-free token runs the handler for its user. |
| ClientUtils.ResponseError | frontend/js/utils.js:71-73 | <ul><li>An ok status (200–299) throws nothing.</li><li>Otherwise the server's truthy `message` is thrown, or else "HTTP error! status: " followed by the status.</li></ul> |

## Left out

- **Connection handling** (`get_db_connection`, `connection.close()`, the store configuration). The database is in-memory sequences of rows. "A connection could be made" is a boolean parameter.
- **JWT signing and verification.** `encode` and `decode` are function parameters. The secret, the HS256 algorithm and the expiry check live inside `decode`: an expired token is one `decode` rejects.
- **bcrypt.** `hashpw` and `checkpw` are function parameters. The random salt is folded into `hashpw`.
- **Other routes and DOM handlers.** `get_categories`, `get_questions`, `add_question` and the client's `admin.js` and `auth.js` are plain reads or inserts, or DOM event handlers, with no decisions beyond the gates modelled here.
- **Floating-point percentages.** The backend's `percentage` and the client's `score / (total_questions * 5)` and progress width are not modelled. Only the zero-denominator fault is.
- **Tie order.** The leaderboard order among rows equal in both score and time is left open: `Ordered` admits every such order. `Top` is one particular ordered result: among tied rows, `Sort` places a later group row before an earlier one.
- **Insertion time.** The `completed_at` timestamp is the parameter `now`, and the auto-increment ids are the parameter `nextId`.
- **JSON typing.** JSON object keys arrive as strings and MySQL coerces them to the integer id column. The model takes question ids as integers. Fields of unexpected JSON types (a non-string password, a non-integer `user_id` claim) are not modelled.
- **Fault messages.** Uncaught faults are modelled as `ServerError` / status 500. The message texts stand in for Flask's error page.
- **Client plumbing.** Not modelled:
  - the timer (`setInterval`), question dots, rendering, `localStorage`, `fetch`;
  - the JSON body encoding of `apiCall`;
  - `submitQuizToServer`'s fixed headers;
  - a response body that is not JSON.
- **Insert failures.** Register and AddCategory assume the insert fails only on the unique username, email or category-name constraints. Any other database error also yields the same 400 in the source.
- Scoring.SubmitQuiz: assumes the results insert always succeeds once connected and `answers` is present. In the source the insert has no `except`. A failing insert (for example an absent `category_id` stored as NULL, or a category id a foreign key rejects) gives an uncaught 500 with nothing committed. The model does not represent that outcome.
- Accounts.RegisterThenLogin: requires that no earlier user's email equals the new username. Without it, login matches the other row; `Accounts.UsernameShadowedByEmail` shows that case.
- ClientUtils.FormatTimeRoundTrip: stated for non-negative seconds only. The page's timer counts up from 0, and `JsRem` models the sign behaviour for negative inputs.
- **String comparison.** Usernames, emails and category names are compared with exact character equality. This applies to the login lookup, the unique constraints and the duplicate category check. MySQL compares with the column's collation, and the usual utf8mb4 defaults ignore case. Under those, "Alice" clashes with "alice" and a login as "ALICE" finds alice's row. The model does not capture this, and the schema's collation is not part of this model.
- **Row order of `fetchone`.** The login and role queries have no `ORDER BY`. The model takes the first matching row in table order. When several rows match a login name, the database may return any of them. `Accounts.UsernameShadowedByEmail` shows the case where the earlier row is returned.

=== FILE: accounts.dfy ===
/**
  The two write handlers with field checks in backend/app.py: `register`
  (users table) and `add_category` (categories table, behind the admin gate).
  bcrypt's `hashpw` is a parameter; the store's auto-increment id is the
  parameter `nextId`; uniqueness of username, email and category name is the
  store's constraint, under which an insert fails and the handler answers 400.
*/
module Accounts {
  import opened Options
  import opened Strings
  import opened Store
  import opened Http
  import Auth

  /** `if not username or not email or not password`. */
  predicate RegistrationComplete(username: Option<string>, email: Option<string>, password: Option<string>) {
    Truthy(username) && Truthy(email) && Truthy(password)
  }

  /** The insert would violate the unique username or unique email constraint. */
  predicate Clashes(users: seq<User>, username: string, email: string) {
    exists i :: 0 <= i < |users| && (users[i].username == username || users[i].email == email)
  }

  /** `register`: fields are checked before the store is touched; a clash
      leaves the table unchanged with 400; otherwise one row is appended with
      the hashed password and the default role. */
  function Register(
    users: seq<User>, connected: bool,
    username: Option<string>, email: Option<string>, password: Option<string>,
    hashpw: string -> string, nextId: int): (r: (seq<User>, Reply))
    ensures r.1.status == 201 <==> RegistrationComplete(username, email, password) && connected
                                   && !Clashes(users, username.value, email.value)
    ensures r.1.status != 201 ==> r.0 == users
    ensures !RegistrationComplete(username, email, password) ==> r.1 == Reply(400, "All fields are required")
    ensures RegistrationComplete(username, email, password) && !connected ==>
      r.1 == DatabaseUnavailable
    ensures (RegistrationComplete(username, email, password) && connected
             && Clashes(users, username.value, email.value)) ==> r.1 == Reply(400, "Username or email already exists")
    ensures r.1.status == 201 ==>
      r.0 == users + [User(nextId, username.value, email.value, hashpw(password.value), DefaultRole)]
    ensures r.1.status == 201 ==> r.1.message == "User registered successfully"
  {
    if !RegistrationComplete(username, email, password) then
      (users, Reply(400, "All fields are required"))
    else if !connected then
      (users, DatabaseUnavailable)
    else if Clashes(users, username.value, email.value) then
      (users, Reply(400, "Username or email already exists"))
    else
      (users + [User(nextId, username.value, email.value, hashpw(password.value), DefaultRole)],
       Reply(201, "User registered successfully"))
  }

  /** A registered user can log in with the same name and password and is
      issued a token for the new row, provided bcrypt accepts the password
      against its own hash and no earlier user has the new username as email
      (login matches either column and takes the first row). */
  lemma RegisterThenLogin(
    users: seq<User>, username: string, email: string, password: string,
    hashpw: string -> string, checkpw: (string, string) -> bool, encode: Auth.Claims -> string,
    nextId: int, now: int)
    requires username != "" && email != "" && password != ""
    requires Register(users, true, Some(username), Some(email), Some(password), hashpw, nextId).1.status == 201
    requires checkpw(password, hashpw(password))
    requires forall i :: 0 <= i < |users| ==> users[i].email != username
    ensures var users' := Register(users, true, Some(username), Some(email), Some(password), hashpw, nextId).0;
            var r := Auth.Login(users', true, Some(username), Some(password), checkpw, encode, now);
            r.LoggedIn? && r.user.id == nextId && r.claims.userId == Some(nextId)
            && r.claims.username == Some(username) && r.claims.role == Some(DefaultRole)
  {
    var users' := Register(users, true, Some(username), Some(email), Some(password), hashpw, nextId).0;
    var row := User(nextId, username, email, hashpw(password), DefaultRole);
    assert users' == users + [row];
    assert users'[|users|] == row;
    assert Auth.MatchesLogin(row, username);
    var k := Auth.FirstLoginMatch(users', username);
    assert k == |users| by {
      assert forall j :: 0 <= j < |users| ==> users'[j] == users[j] && !Auth.MatchesLogin(users[j], username);
    }
  }

  /** The login query matches the username and email columns alike, so a new
      user whose username is an existing user's email is matched to the
      existing row: a login with the new user's credentials is checked against
      the other user's hash. */
  lemma UsernameShadowedByEmail(hashpw: string -> string, checkpw: (string, string) -> bool, encode: Auth.Claims -> string, now: int)
    ensures var users := [User(1, "alice", "bob", hashpw("alice-pw"), DefaultRole)];
            var r := Register(users, true, Some("bob"), Some("bob@example.org"), Some("bob-pw"), hashpw, 2);
            && r.1.status == 201
            && Auth.FindLogin(r.0, Some("bob")) == Some(users[0])
            && Auth.Login(r.0, true, Some("bob"), Some("bob-pw"), checkpw, encode, now)
               == (if checkpw("bob-pw", hashpw("alice-pw"))
                   then Auth.LoggedIn(encode(Auth.IssueClaims(users[0], now)), Auth.IssueClaims(users[0], now), users[0])
                   else Auth.InvalidCredentials)
  {
    var users := [User(1, "alice", "bob", hashpw("alice-pw"), DefaultRole)];
    assert !Clashes(users, "bob", "bob@example.org") by {
      assert users[0].username != "bob";
      assert users[0].email != "bob@example.org";
    }
  }

  // ----- categories -----

  /** `add_category` once the admin gate has let the request through: the
      name must be truthy, the description defaults to the empty string. */
  function AddCategory(
    categories: seq<Category>, connected: bool,
    name: Option<string>, description: Option<string>, nextId: int): (r: (seq<Category>, Reply))
    ensures !Truthy(name) ==> r == (categories, Reply(400, "Category name is required"))
    ensures Truthy(name) && !connected ==> r.1 == DatabaseUnavailable
    ensures (Truthy(name) && connected && exists i :: 0 <= i < |categories| && categories[i].name == name.value) ==>
      r.1 == Reply(400, "Category already exists")
    ensures r.1.status == 201 <==> Truthy(name) && connected
                                   && forall i :: 0 <= i < |categories| ==> categories[i].name != name.value
    ensures r.1.status != 201 ==> r.0 == categories
    ensures r.1.status == 201 ==> r.0 == categories + [Category(nextId, name.value, ValueOr(description, ""))]
    ensures r.1.status == 201 ==> r.1.message == "Category added successfully"
  {
    if !Truthy(name) then (categories, Reply(400, "Category name is required"))
    else if !connected then (categories, DatabaseUnavailable)
    else if exists i :: 0 <= i < |categories| && categories[i].name == name.value then
      (categories, Reply(400, "Category already exists"))
    else
      (categories + [Category(nextId, name.value, ValueOr(description, ""))], Reply(201, "Category added successfully"))
  }

  /** `POST /admin/categories`: token gate, admin gate, then the handler. The
      admin gate and the handler each open their own connection
      (`gateConnected`, `handlerConnected`). */
  function AddCategoryRoute(
    header: Option<string>, decode: string -> Option<Auth.Claims>, gateConnected: bool,
    users: seq<User>, categories: seq<Category>, handlerConnected: bool,
    name: Option<string>, description: Option<string>, nextId: int): (r: (seq<Category>, Reply))
    ensures r.0 != categories ==> Auth.AdminRoute(header, decode, gateConnected, users).Invoke?
    ensures Auth.AdminRoute(header, decode, gateConnected, users).Invoke? ==>
      r == AddCategory(categories, handlerConnected, name, description, nextId)
    ensures Auth.AdminRoute(header, decode, gateConnected, users).Reject? ==>
      r == (categories, Auth.AdminRoute(header, decode, gateConnected, users).reply)
  {
    match Auth.AdminRoute(header, decode, gateConnected, users)
    case Invoke(_) => AddCategory(categories, handlerConnected, name, description, nextId)
    case Reject(reply) => (categories, reply)
  }

  /** A valid token of a user who is not an admin gets 403 and no row is inserted. */
  lemma NonAdminCannotAddCategory(
    header: Option<string>, decode: string -> Option<Auth.Claims>,
    users: seq<User>, categories: seq<Category>,
    name: Option<string>, description: Option<string>, nextId: int)
    requires Auth.TokenGate(header, decode).Invoke?
    requires !Auth.IsAdmin(users, Auth.TokenGate(header, decode).userId)
    ensures forall handlerConnected: bool ::
      AddCategoryRoute(header, decode, true, users, categories, handlerConnected, name, description, nextId)
            == (categories, Reply(403, "Admin access required"))
  {
  }
}

=== FILE: auth.dfy ===
/**
  The token service and authorization gate of backend/app.py: token issuance
  in `login`, the `token_required` decorator and the `admin_required`
  decorator. JWT signing and verification and bcrypt are foreign libraries and
  appear as function parameters: `encode` signs claims into a token, `decode`
  yields the claims of a token whose signature and expiry check out, `checkpw`
  compares a password against a stored hash.
*/
module Auth {
  import opened Options
  import opened Strings
  import opened Store
  import opened Http

  /** Validity window of an issued token, in seconds (24 hours). */
  const TokenLifetime: int := 24 * 60 * 60

  /** A token's payload; a decoded token need not carry every claim. */
  datatype Claims = Claims(userId: Option<int>, username: Option<string>, role: Option<string>, exp: Option<int>)

  /** The outcome of a guarded request: the handler runs for `userId`, or the
      gate answers with an HTTP status and message. */
  datatype Gate =
    | Invoke(userId: int)
    | Reject(reply: Reply)

  const TokenMissing: Gate := Reject(Reply(401, "Token is missing"))
  const TokenInvalid: Gate := Reject(Reply(401, "Token is invalid"))
  const AdminRequired: Gate := Reject(Reply(403, "Admin access required"))
  const ConnectionFailed: Gate := Reject(DatabaseUnavailable)

  /** `header.split(' ')[1]`: the text between the first and the second space,
      or nothing (an `IndexError`) when the header has no space. */
  function BearerToken(header: string): (r: Option<string>)
    ensures r.Some? <==> ' ' in header
    ensures r.Some? ==> ' ' !in r.value
    ensures r.Some? ==> SecondWord(header, r.value)
  {
    CountZero(header, ' ');
    var parts := Split(header, ' ');
    if |parts| >= 2 then
      SecondField(header);
      Some(parts[1])
    else None
  }

  /** `t` is the text between the first space of `header` and the next space
      (or the end). */
  predicate SecondWord(header: string, t: string) {
    exists i :: 0 <= i < |header| && header[i] == ' ' && ' ' !in header[..i]
      && i + 1 + |t| <= |header| && header[i + 1..i + 1 + |t|] == t
      && (i + 1 + |t| == |header| || header[i + 1 + |t|] == ' ')
  }

  /** The second `' '`-field of a header with a space starts right after the
      first space and runs up to the next space or the end. */
  lemma SecondField(header: string)
    requires ' ' in header
    ensures |Split(header, ' ')| >= 2 && SecondWord(header, Split(header, ' ')[1])
  {
    CountZero(header, ' ');
    var w := Split(header, ' ')[0];
    FirstField(header, ' ');
    assert |w| < |header|;
    var rest := header[|w| + 1..];
    assert header == w + [' '] + rest;
    SplitAfterField(w, ' ', rest);
    SecondWordAfter(w, rest);
  }

  /** After a space-free word and one space, the first field of the rest is the second word. */
  lemma SecondWordAfter(w: string, rest: string)
    requires ' ' !in w
    ensures SecondWord(w + [' '] + rest, Split(rest, ' ')[0])
  {
    var header := w + [' '] + rest;
    var i := |w|;
    FirstField(rest, ' ');
    var f := Split(rest, ' ')[0];
    assert header[i] == ' ' && header[..i] == w;
    assert header[i + 1..] == rest;
    assert header[i + 1..i + 1 + |f|] == rest[..|f|];
    assert i + 1 + |f| == |header| || header[i + 1 + |f|] == rest[|f|];
  }

  /** `token_required`: an absent or empty header is "missing"; no space, a
      token `decode` rejects, or claims without `user_id` are "invalid";
      otherwise the handler runs for the decoded user id. */
  function TokenGate(header: Option<string>, decode: string -> Option<Claims>): (r: Gate)
    ensures r == TokenMissing <==> !Truthy(header)
    ensures r.Reject? ==> r == TokenMissing || r == TokenInvalid
    ensures r.Invoke? <==>
      Truthy(header) && BearerToken(header.value).Some?
      && decode(BearerToken(header.value).value).Some?
      && decode(BearerToken(header.value).value).value.userId.Some?
    ensures r.Invoke? ==> decode(BearerToken(header.value).value).value.userId == Some(r.userId)
  {
    if !Truthy(header) then TokenMissing
    else match BearerToken(header.value)
      case None => TokenInvalid
      case Some(token) =>
        match decode(token)
        case None => TokenInvalid
        case Some(claims) =>
          if claims.userId.Some? then Invoke(claims.userId.value) else TokenInvalid
  }

  /** A non-empty header without a space never reaches `decode`. */
  lemma HeaderWithoutSpaceInvalid(header: string, decode: string -> Option<Claims>)
    requires header != "" && ' ' !in header
    ensures TokenGate(Some(header), decode) == TokenInvalid
  {
  }

  /** The word before the first space is never checked: any scheme word gives
      the same outcome. */
  lemma {:induction false} SchemeIgnored(w1: string, w2: string, rest: string, decode: string -> Option<Claims>)
    requires ' ' !in w1 && ' ' !in w2
    ensures TokenGate(Some(w1 + " " + rest), decode) == TokenGate(Some(w2 + " " + rest), decode)
  {
    SplitAfterField(w1, ' ', rest);
    SplitAfterField(w2, ' ', rest);
    var h1 := w1 + " " + rest;
    var h2 := w2 + " " + rest;
    assert h1[|w1|] == ' ' && h2[|w2|] == ' ';
    assert Split(h1, ' ')[1..] == Split(h2, ' ')[1..];
  }

  /** "Bearer " + t reaches `decode` as exactly t when t is non-empty and has no space. */
  lemma {:induction false} BearerRoundTrip(t: string)
    requires t != "" && ' ' !in t
    ensures BearerToken("Bearer " + t) == Some(t)
  {
    SplitJoin(["Bearer", t], ' ');
    assert Join(["Bearer", t], ' ') == "Bearer " + t;
  }

  /** A token that `decode` accepts and that carries `user_id` lets the handler
      run for exactly that user. */
  lemma GateAcceptsBearer(t: string, decode: string -> Option<Claims>, c: Claims)
    requires t != "" && ' ' !in t
    requires decode(t) == Some(c) && c.userId.Some?
    ensures TokenGate(Some("Bearer " + t), decode) == Invoke(c.userId.value)
  {
    BearerRoundTrip(t);
  }

  /** The first user row with this id exists and has role "admin". */
  ghost predicate IsAdmin(users: seq<User>, userId: int) {
    exists i :: 0 <= i < |users| && users[i].id == userId && users[i].role == AdminRole
      && forall j :: 0 <= j < i ==> users[j].id != userId
  }

  /** `admin_required`, run after `token_required` has produced `userId`:
      without a store connection the answer is 500; the handler runs only when
      the user row exists and its role is exactly "admin"; otherwise 403. */
  function AdminGate(userId: int, connected: bool, users: seq<User>): (r: Gate)
    ensures !connected ==> r == ConnectionFailed
    ensures r.Invoke? ==> r.userId == userId
    ensures r.Invoke? <==> connected && IsAdmin(users, userId)
    ensures r.Reject? ==> r == ConnectionFailed || r == AdminRequired
    ensures connected && !IsAdmin(users, userId) ==> r == AdminRequired
  {
    if !connected then ConnectionFailed
    else
      var u := FindUser(users, userId);
      if u.None? || u.value.role != AdminRole then
        AdminRequired
      else Invoke(userId)
  }

  /** An admin route: `token_required` wrapped around `admin_required`. */
  function AdminRoute(header: Option<string>, decode: string -> Option<Claims>, connected: bool, users: seq<User>): (r: Gate)
    ensures TokenGate(header, decode).Reject? ==> r == TokenGate(header, decode)
    ensures r.Invoke? ==> TokenGate(header, decode) == r && AdminGate(r.userId, connected, users) == r
    ensures TokenGate(header, decode).Invoke? ==> r == AdminGate(TokenGate(header, decode).userId, connected, users)
  {
    match TokenGate(header, decode)
    case Invoke(u) => AdminGate(u, connected, users)
    case Reject(reply) => Reject(reply)
  }

  /** Authentication failures short-circuit before the store is consulted: a
      missing or invalid token gives 401 whether or not the store is reachable. */
  lemma AuthenticationBeforeStore(header: Option<string>, decode: string -> Option<Claims>, users: seq<User>)
    requires TokenGate(header, decode).Reject?
    ensures AdminRoute(header, decode, true, users) == AdminRoute(header, decode, false, []) == TokenGate(header, decode)
    ensures AdminRoute(header, decode, false, users).reply.status == 401
  {
  }

  /** Fail closed: without a store connection an admin route never runs its handler. */
  lemma AdminFailsClosed(header: Option<string>, decode: string -> Option<Claims>, users: seq<User>)
    ensures !AdminRoute(header, decode, false, users).Invoke?
  {
  }

  // ----- login -----

  /** The row matches a login name in either column. */
  predicate MatchesLogin(user: User, name: string) {
    user.username == name || user.email == name
  }

  /** Index of the first row matching `name`, or `|users|` when none does. */
  function FirstLoginMatch(users: seq<User>, name: string): (k: nat)
    ensures k <= |users|
    ensures forall j :: 0 <= j < k ==> !MatchesLogin(users[j], name)
    ensures k < |users| ==> MatchesLogin(users[k], name)
  {
    if |users| == 0 || MatchesLogin(users[0], name) then 0 else 1 + FirstLoginMatch(users[1..], name)
  }

  /** `SELECT … FROM users WHERE username = %s OR email = %s` with the submitted
      name in both places, first row; a missing name (SQL NULL) matches nothing. */
  function FindLogin(users: seq<User>, name: Option<string>): (r: Option<User>)
    ensures r.Some? <==> name.Some? && exists i :: 0 <= i < |users| && MatchesLogin(users[i], name.value)
    ensures r.Some? ==> r.value == users[FirstLoginMatch(users, name.value)]
  {
    if name.None? then None
    else
      var k := FirstLoginMatch(users, name.value);
      if k < |users| then Some(users[k]) else None
  }

  /** The claims `login` signs for a user row at time `now` (seconds). */
  function IssueClaims(user: User, now: int): (c: Claims)
    ensures c.userId == Some(user.id) && c.username == Some(user.username) && c.role == Some(user.role)
    ensures c.exp.Some? && c.exp.value - now == 86400
  {
    Claims(Some(user.id), Some(user.username), Some(user.role), Some(now + TokenLifetime))
  }

  datatype LoginResponse =
    | LoggedIn(token: string, claims: Claims, user: User)
    | LoginRejected(reply: Reply)

  const InvalidCredentials: LoginResponse := LoginRejected(Reply(401, "Invalid credentials"))

  /** `login`: a missing password with a matching row fails at
      `password.encode` (500); an unknown name and a wrong password give the
      same 401. */
  function Login(
    users: seq<User>, connected: bool, name: Option<string>, password: Option<string>,
    checkpw: (string, string) -> bool, encode: Claims -> string, now: int): (r: LoginResponse)
    ensures !connected ==> r == LoginRejected(DatabaseUnavailable)
    ensures r.LoggedIn? <==>
      connected && FindLogin(users, name).Some? && password.Some?
      && checkpw(password.value, FindLogin(users, name).value.passwordHash)
    ensures r.LoggedIn? ==>
      && r.user in users && MatchesLogin(r.user, name.value)
      && r.claims == IssueClaims(r.user, now)
      && r.token == encode(r.claims)
    ensures r.LoggedIn? ==> r.user == FindLogin(users, name).value
    ensures connected && FindLogin(users, name).None? ==> r == InvalidCredentials
    ensures connected && FindLogin(users, name).Some? && password.None? ==> r.LoginRejected? && r.reply.status == 500
    ensures (connected && FindLogin(users, name).Some? && password.Some?
             && !checkpw(password.value, FindLogin(users, name).value.passwordHash)) ==> r == InvalidCredentials
  {
    if !connected then LoginRejected(DatabaseUnavailable)
    else match FindLogin(users, name)
      case None => InvalidCredentials
      case Some(user) =>
        if password.None? then LoginRejected(Reply(500, "'NoneType' object has no attribute 'encode'"))
        else if checkpw(password.value, user.passwordHash) then
          var claims := IssueClaims(user, now);
          LoggedIn(encode(claims), claims, user)
        else InvalidCredentials
  }

  /** An unknown name and a known name with the wrong password are
      indistinguishable to the client. */
  lemma UnknownUserLikeWrongPassword(
    users: seq<User>, known: string, unknown: string, password: string,
    checkpw: (string, string) -> bool, encode: Claims -> string, now: int)
    requires FindLogin(users, Some(unknown)).None?
    requires FindLogin(users, Some(known)).Some?
    requires !checkpw(password, FindLogin(users, Some(known)).value.passwordHash)
    ensures Login(users, true, Some(unknown), Some(password), checkpw, encode, now)
         == Login(users, true, Some(known), Some(password), checkpw, encode, now)
         == InvalidCredentials
  {
  }

  /** A token issued by `login` and presented as "Bearer <token>" lets the
      handler run for the logged-in user's id, provided the JWT library decodes
      what it encoded and the token has no space (JWTs are base64url text). */
  lemma LoginTokenAuthenticates(
    users: seq<User>, name: Option<string>, password: Option<string>,
    checkpw: (string, string) -> bool, encode: Claims -> string, decode: string -> Option<Claims>, now: int)
    requires Login(users, true, name, password, checkpw, encode, now).LoggedIn?
    requires var r := Login(users, true, name, password, checkpw, encode, now);
             decode(r.token) == Some(r.claims) && r.token != "" && ' ' !in r.token
    ensures var r := Login(users, true, name, password, checkpw, encode, now);
            TokenGate(Some("Bearer " + r.token), decode) == Invoke(r.user.id)
  {
    var r := Login(users, true, name, password, checkpw, encode, now);
    GateAcceptsBearer(r.token, decode, r.claims);
  }
}

=== FILE: client_utils.dfy ===
/**
  Helpers of frontend/js/utils.js: `formatTime` for the quiz timer, the
  headers `apiCall` sends (including `Authorization: Bearer <token>`, which
  the backend's token gate reads), and the message `apiCall` throws for a
  non-ok response.
*/
module ClientUtils {
  import opened Options
  import opened Strings
  import Auth

  // ----- formatTime -----

  /** JavaScript's `%`: the remainder of the division truncated toward zero,
      so it takes the sign of the dividend. */
  function JsRem(a: int, b: int): (r: int)
    requires b > 0
    ensures a >= 0 ==> 0 <= r < b && a == (a / b) * b + r
    ensures a < 0 ==> -b < r <= 0 && a == -((-a) / b) * b + r
  {
    if a >= 0 then a % b else -((-a) % b)
  }

  /** `formatTime(seconds)`: `Math.floor(seconds / 60)` and `seconds % 60`,
      each left-padded with '0' to two characters, joined by ':'. */
  function FormatTime(seconds: int): (r: string)
    ensures seconds >= 0 ==> |r| >= 5 && r[|r| - 3] == ':'
  {
    var mins := seconds / 60;  // Euclidean division by a positive divisor is floor division
    var secs := JsRem(seconds, 60);
    DecimalWidth(seconds % 60);
    PadStart(IntToString(mins), 2, '0') + ":" + PadStart(IntToString(secs), 2, '0')
  }

  /** Reads "mm:ss" text back as seconds; `None` unless it is two fields of digits. */
  function ParseTime(text: string): Option<int>
  {
    var fields := Split(text, ':');
    if |fields| == 2 && AllDigits(fields[0]) && AllDigits(fields[1]) && fields[0] != "" && fields[1] != ""
    then Some(ParseDecimal(fields[0]) * 60 + ParseDecimal(fields[1]))
    else None
  }

  /** A padded field of a non-negative number: digits only, at least two of
      them, the number's own digits at the end, and it parses back to the number. */
  lemma PaddedField(n: nat)
    ensures var f := PadStart(Decimal(n), 2, '0');
            && |f| >= 2 && |f| >= |Decimal(n)| && f[|f| - |Decimal(n)|..] == Decimal(n)
            && AllDigits(f) && ParseDecimal(f) == n
            && (n < 100 ==> |f| == 2)
  {
    PadDigits(Decimal(n));
    ParseDecimalInverse(n);
    DecimalWidth(n);
  }

  /** Zero-padding digits keeps them digits and keeps their value. */
  lemma PadDigits(d: string)
    requires AllDigits(d)
    ensures AllDigits(PadStart(d, 2, '0')) && ParseDecimal(PadStart(d, 2, '0')) == ParseDecimal(d)
  {
    var f := PadStart(d, 2, '0');
    var z := f[..|f| - |d|];
    assert f == z + d;
    ParseLeadingZeros(z, d);
  }

  /** The text of `m` minutes and `s` seconds once both are non-negative. */
  function Clock(m: nat, s: nat): string {
    PadStart(Decimal(m), 2, '0') + ":" + PadStart(Decimal(s), 2, '0')
  }

  /** For a non-negative count both fields are plain decimal numbers. */
  lemma FormatTimeShape(seconds: int)
    requires seconds >= 0
    ensures 0 <= seconds % 60 < 60 && seconds == seconds / 60 * 60 + seconds % 60
    ensures FormatTime(seconds) == Clock(seconds / 60, seconds % 60)
    ensures seconds < 6000 <==> seconds / 60 < 100
  {
  }

  lemma ClockFields(m: nat, s: nat)
    ensures var fields := Split(Clock(m, s), ':');
            && |fields| == 2
            && AllDigits(fields[0]) && AllDigits(fields[1])
            && |fields[0]| >= 2 && (s < 100 ==> |fields[1]| == 2)
            && ParseDecimal(fields[0]) == m && ParseDecimal(fields[1]) == s
  {
    PaddedField(m);
    PaddedField(s);
    TwoFields(PadStart(Decimal(m), 2, '0'), PadStart(Decimal(s), 2, '0'));
  }

  /** Two digit strings joined by ':' split back into the two. */
  lemma TwoFields(a: string, b: string)
    requires AllDigits(a) && AllDigits(b)
    ensures Split(a + ":" + b, ':') == [a, b]
  {
    JoinTwo(a, b, ':');
    NoColonInDigits(a);
    NoColonInDigits(b);
    SplitJoin([a, b], ':');
  }

  lemma ClockWidth(m: nat, s: nat)
    requires s < 100
    ensures m < 100 ==> |Clock(m, s)| == 5
    ensures m >= 100 ==> |Clock(m, s)| >= 6
  {
    DecimalWidth(m);
    DecimalWidth(s);
  }

  /** For a non-negative count of seconds the text is two fields separated by
      one ':': the minutes (`seconds / 60`) and the seconds (`seconds % 60`, below
      60), each at least two digits long. */
  lemma FormatTimeFields(seconds: int)
    requires seconds >= 0
    ensures var fields := Split(FormatTime(seconds), ':');
            && |fields| == 2
            && AllDigits(fields[0]) && AllDigits(fields[1])
            && |fields[0]| >= 2 && |fields[1]| == 2
            && ParseDecimal(fields[0]) == seconds / 60
            && ParseDecimal(fields[1]) == seconds % 60 < 60
  {
    FormatTimeShape(seconds);
    ClockFields(seconds / 60, seconds % 60);
  }

  lemma JoinTwo(a: string, b: string, sep: char)
    ensures Join([a, b], sep) == a + [sep] + b
  {
    assert [a, b][1..] == [b];
  }

  lemma NoColonInDigits(f: string)
    requires AllDigits(f)
    ensures ':' !in f
  {
  }

  /** Round trip: reading the text back gives the number of seconds. */
  lemma FormatTimeRoundTrip(seconds: int)
    requires seconds >= 0
    ensures ParseTime(FormatTime(seconds)) == Some(seconds)
  {
    FormatTimeShape(seconds);
    ClockRoundTrip(seconds / 60, seconds % 60, seconds);
  }

  lemma ClockRoundTrip(m: nat, s: nat, total: int)
    requires total == m * 60 + s
    ensures ParseTime(Clock(m, s)) == Some(total)
  {
    ClockFields(m, s);
  }

  /** Below 100 minutes the text is exactly "mm:ss"; from 100 minutes on the
      minutes field grows instead of being cut. */
  lemma FormatTimeWidth(seconds: int)
    requires seconds >= 0
    ensures seconds < 6000 ==> |FormatTime(seconds)| == 5
    ensures seconds >= 6000 ==> |FormatTime(seconds)| >= 6
  {
    FormatTimeShape(seconds);
    ClockWidth(seconds / 60, seconds % 60);
  }

  // ----- apiCall -----

  type Headers = map<string, string>

  /** The headers of `apiCall(endpoint, options)`. The defaults are
      Content-Type plus, for a truthy stored token, the bearer header; but
      because `...options` is spread after `headers`, an `options.headers`
      object replaces the whole header object. */
  function RequestHeaders(token: Option<string>, optionHeaders: Option<Headers>): (r: Headers)
    ensures optionHeaders.Some? ==> r == optionHeaders.value
    ensures optionHeaders.None? ==>
      && "Content-Type" in r && r["Content-Type"] == "application/json"
      && ("Authorization" in r <==> Truthy(token))
      && (Truthy(token) ==> r["Authorization"] == "Bearer " + token.value)
      && r.Keys <= {"Content-Type", "Authorization"}
  {
    if optionHeaders.Some? then optionHeaders.value
    else
      var base := map["Content-Type" := "application/json"];
      if Truthy(token) then base["Authorization" := "Bearer " + token.value] else base
  }

  /** The header the backend reads: `request.headers.get('Authorization')`. */
  function AuthorizationOf(h: Headers): Option<string> {
    if "Authorization" in h then Some(h["Authorization"]) else None
  }

  /** The client's default headers and the backend's token gate agree: with a
      stored token that the JWT library accepts and that has no space, the
      handler runs for the token's user; with no stored token the gate
      answers "Token is missing". */
  lemma HeadersReachGate(token: Option<string>, decode: string -> Option<Auth.Claims>)
    ensures !Truthy(token) ==> Auth.TokenGate(AuthorizationOf(RequestHeaders(token, None)), decode) == Auth.TokenMissing
    ensures Truthy(token) && ' ' !in token.value && decode(token.value).Some? && decode(token.value).value.userId.Some? ==>
      Auth.TokenGate(AuthorizationOf(RequestHeaders(token, None)), decode) == Auth.Invoke(decode(token.value).value.userId.value)
  {
    if Truthy(token) && ' ' !in token.value && decode(token.value).Some? && decode(token.value).value.userId.Some? {
      Auth.GateAcceptsBearer(token.value, decode, decode(token.value).value);
    }
  }

  /** `response.ok`: a status in the range 200–299. */
  predicate Ok(status: int) {
    200 <= status <= 299
  }

  const StatusPrefix: string := "HTTP error! status: "

  /** The message `apiCall` throws for a response: none for an ok status,
      otherwise the server's `message` when truthy, else "HTTP error! status: N". */
  function ResponseError(status: int, message: Option<string>): (r: Option<string>)
    ensures r.None? <==> Ok(status)
    ensures !Ok(status) && Truthy(message) ==> r == message
    ensures !Ok(status) && !Truthy(message) ==>
      (r.Some? && |r.value| > |StatusPrefix|
       && r.value[..|StatusPrefix|] == StatusPrefix && r.value[|StatusPrefix|..] == IntToString(status))
  {
    if Ok(status) then None
    else if Truthy(message) then message
    else Some(StatusPrefix + IntToString(status))
  }
}

=== FILE: http.dfy ===
/** The JSON body a route answers with when it does not return data: an HTTP status and a `message`. */
module Http {

  datatype Reply = Reply(status: int, message: string)

  /** Every route's answer when `get_db_connection` yields nothing. */
  const DatabaseUnavailable: Reply := Reply(500, "Database connection failed")
}

=== FILE: leaderboard.dfy ===
/**
  The leaderboard query of `get_leaderboard` in backend/app.py: results of one
  category joined with their users, grouped by user, each field aggregated on
  its own (MAX score, MAX total_questions, MIN time_taken, MAX completed_at),
  ordered by score descending then time ascending, first 20 rows.

  SQL leaves the order of rows equal in both score and time unspecified; the
  predicate `Ordered` admits every such order and `Top` is one of them.
*/
module Leaderboard {
  import opened Store

  /** `LIMIT 20`. */
  const Limit: nat := 20

  /** One leaderboard line. The query returns `username` and the aggregates;
      `userId` is the grouping key, kept here to state per-user properties. */
  datatype Row = Row(userId: int, username: string, score: int, totalQuestions: int, timeTaken: int, completedAt: int)

  /** User `u` has at least one result in category `cat`. */
  predicate HasAttempt(results: seq<Result>, cat: int, u: int) {
    exists x :: x in results && x.categoryId == cat && x.userId == u
  }

  /** The rows `WHERE r.category_id = cat` of user `u`, in table order. */
  function Attempts(results: seq<Result>, cat: int, u: int): (r: seq<Result>)
    ensures forall x :: x in r <==> x in results && x.categoryId == cat && x.userId == u
  {
    if |results| == 0 then []
    else
      var x := results[|results| - 1];
      var r := Attempts(results[..|results| - 1], cat, u);
      assert results == results[..|results| - 1] + [x];
      if x.categoryId == cat && x.userId == u then r + [x] else r
  }

  /** SQL `MAX` of a column over a non-empty group. */
  function MaxOver(rows: seq<Result>, f: Result -> int): (m: int)
    requires |rows| > 0
    ensures forall x :: x in rows ==> f(x) <= m
    ensures exists x :: x in rows && f(x) == m
  {
    if |rows| == 1 then f(rows[0])
    else
      var m := MaxOver(rows[1..], f);
      assert forall x :: x in rows ==> x == rows[0] || x in rows[1..];
      if f(rows[0]) >= m then f(rows[0]) else m
  }

  /** SQL `MIN` of a column over a non-empty group. */
  function MinOver(rows: seq<Result>, f: Result -> int): (m: int)
    requires |rows| > 0
    ensures forall x :: x in rows ==> m <= f(x)
    ensures exists x :: x in rows && f(x) == m
  {
    if |rows| == 1 then f(rows[0])
    else
      var m := MinOver(rows[1..], f);
      assert forall x :: x in rows ==> x == rows[0] || x in rows[1..];
      if f(rows[0]) <= m then f(rows[0]) else m
  }

  /** The group of user `u`: one row carrying the user's name and each column
      aggregated on its own (see `AggregateColumns`). */
  function Aggregate(results: seq<Result>, usernames: map<int, string>, cat: int, u: int): (r: Row)
    requires u in usernames && HasAttempt(results, cat, u)
    ensures r.userId == u && r.username == usernames[u]
  {
    var att := Attempts(results, cat, u);
    var w :| w in results && w.categoryId == cat && w.userId == u;
    assert w in att;
    Row(u, usernames[u],
        MaxOver(att, (x: Result) => x.score), MaxOver(att, (x: Result) => x.totalQuestions),
        MinOver(att, (x: Result) => x.timeTaken), MaxOver(att, (x: Result) => x.completedAt))
  }

  /** The score, total and timestamp of a group are maxima and its time a
      minimum over the user's attempts in the category, each attained by some
      attempt but possibly by different ones. */
  lemma AggregateColumns(results: seq<Result>, usernames: map<int, string>, cat: int, u: int)
    requires u in usernames && HasAttempt(results, cat, u)
    ensures var r := Aggregate(results, usernames, cat, u);
      && (forall x :: x in results && x.categoryId == cat && x.userId == u ==>
            x.score <= r.score && x.totalQuestions <= r.totalQuestions
            && r.timeTaken <= x.timeTaken && x.completedAt <= r.completedAt)
      && (exists x :: x in results && x.categoryId == cat && x.userId == u && x.score == r.score)
      && (exists x :: x in results && x.categoryId == cat && x.userId == u && x.totalQuestions == r.totalQuestions)
      && (exists x :: x in results && x.categoryId == cat && x.userId == u && x.timeTaken == r.timeTaken)
      && (exists x :: x in results && x.categoryId == cat && x.userId == u && x.completedAt == r.completedAt)
  {
  }

  /** `row` is the aggregated group of its user. */
  predicate IsGroupRow(results: seq<Result>, usernames: map<int, string>, cat: int, row: Row) {
    row.userId in usernames && HasAttempt(results, cat, row.userId)
    && row == Aggregate(results, usernames, cat, row.userId)
  }

  /** `GROUP BY r.user_id`: the users that have a result in the category and a
      user row to join with, each once, in order of first appearance. */
  function Players(results: seq<Result>, usernames: map<int, string>, cat: int): (ids: seq<int>)
    ensures forall i, j :: 0 <= i < j < |ids| ==> ids[i] != ids[j]
    ensures forall u :: u in ids <==> u in usernames && HasAttempt(results, cat, u)
  {
    if |results| == 0 then []
    else
      var x := results[|results| - 1];
      var init := results[..|results| - 1];
      var ids := Players(init, usernames, cat);
      assert results == init + [x];
      assert forall u :: HasAttempt(results, cat, u) <==> HasAttempt(init, cat, u) || (x.categoryId == cat && x.userId == u);
      if x.categoryId == cat && x.userId in usernames && x.userId !in ids then ids + [x.userId] else ids
  }

  function UserIds(rows: seq<Row>): (ids: seq<int>)
    ensures |ids| == |rows|
    ensures forall i :: 0 <= i < |rows| ==> ids[i] == rows[i].userId
  {
    seq(|rows|, i requires 0 <= i < |rows| => rows[i].userId)
  }

  /** No user occurs in two rows. */
  predicate DistinctUsers(rows: seq<Row>) {
    forall i, j :: 0 <= i < j < |rows| ==> rows[i].userId != rows[j].userId
  }

  /** One aggregated row per player. */
  function Grouped(results: seq<Result>, usernames: map<int, string>, cat: int): (rows: seq<Row>)
    ensures DistinctUsers(rows)
    ensures forall u :: u in UserIds(rows) <==> u in usernames && HasAttempt(results, cat, u)
    ensures forall i :: 0 <= i < |rows| ==>
      IsGroupRow(results, usernames, cat, rows[i])
  {
    var ids := Players(results, usernames, cat);
    var rows := seq(|ids|, i requires 0 <= i < |ids| => Aggregate(results, usernames, cat, ids[i]));
    assert UserIds(rows) == ids;
    rows
  }

  // ----- ORDER BY score DESC, time_taken ASC -----

  /** `a` may be listed before `b`. */
  predicate Ranks(a: Row, b: Row) {
    a.score > b.score || (a.score == b.score && a.timeTaken <= b.timeTaken)
  }

  predicate Ordered(rows: seq<Row>) {
    forall i, j :: 0 <= i < j < |rows| ==> Ranks(rows[i], rows[j])
  }

  /** Where `x` goes in an ordered list: before the first row it ranks with. */
  function InsertPos(x: Row, rows: seq<Row>): (k: nat)
    ensures k <= |rows|
    ensures forall i :: 0 <= i < k ==> !Ranks(x, rows[i])
    ensures k < |rows| ==> Ranks(x, rows[k])
  {
    if |rows| == 0 || Ranks(x, rows[0]) then 0 else 1 + InsertPos(x, rows[1..])
  }

  function Insert(x: Row, rows: seq<Row>): (r: seq<Row>)
    requires Ordered(rows)
    ensures Ordered(r)
    ensures multiset(r) == multiset(rows) + multiset{x}
    ensures DistinctUsers(rows) && x.userId !in UserIds(rows) ==> DistinctUsers(r)
  {
    var k := InsertPos(x, rows);
    InsertAt(x, rows, k);
    rows[..k] + [x] + rows[k..]
  }

  /** Placing `x` at its insertion position keeps the order, the multiset and
      the one-row-per-user property. */
  lemma InsertAt(x: Row, rows: seq<Row>, k: nat)
    requires Ordered(rows)
    requires k == InsertPos(x, rows)
    ensures Ordered(rows[..k] + [x] + rows[k..])
    ensures multiset(rows[..k] + [x] + rows[k..]) == multiset(rows) + multiset{x}
    ensures DistinctUsers(rows) && x.userId !in UserIds(rows) ==> DistinctUsers(rows[..k] + [x] + rows[k..])
  {
    assert rows == rows[..k] + rows[k..];
    InsertKeepsOrder(x, rows, k);
    if DistinctUsers(rows) && x.userId !in UserIds(rows) {
      InsertKeepsDistinct(x, rows, k);
    }
  }

  lemma InsertKeepsOrder(x: Row, rows: seq<Row>, k: nat)
    requires Ordered(rows)
    requires k == InsertPos(x, rows)
    ensures Ordered(rows[..k] + [x] + rows[k..])
  {
    var r := rows[..k] + [x] + rows[k..];
    forall i, j | 0 <= i < j < |r| ensures Ranks(r[i], r[j]) {
      if j < k {
        assert r[i] == rows[i] && r[j] == rows[j];
      } else if j == k {
        assert r[i] == rows[i] && r[j] == x;
        assert !Ranks(x, rows[i]);
      } else if i < k {
        assert r[i] == rows[i] && r[j] == rows[j - 1];
      } else if i == k {
        assert r[i] == x && r[j] == rows[j - 1];
        assert Ranks(x, rows[k]);
        if j - 1 > k {
          assert Ranks(rows[k], rows[j - 1]);
        }
      } else {
        assert r[i] == rows[i - 1] && r[j] == rows[j - 1];
      }
    }
  }

  lemma InsertKeepsDistinct(x: Row, rows: seq<Row>, k: nat)
    requires k <= |rows|
    requires DistinctUsers(rows) && x.userId !in UserIds(rows)
    ensures DistinctUsers(rows[..k] + [x] + rows[k..])
  {
    var r := rows[..k] + [x] + rows[k..];
    forall i, j | 0 <= i < j < |r| ensures r[i].userId != r[j].userId {
      if j < k {
        assert r[i] == rows[i] && r[j] == rows[j];
      } else if j == k {
        assert r[i] == rows[i] && r[j] == x;
        assert rows[i].userId == UserIds(rows)[i];
      } else if i < k {
        assert r[i] == rows[i] && r[j] == rows[j - 1];
      } else if i == k {
        assert r[i] == x && r[j] == rows[j - 1];
        assert rows[j - 1].userId == UserIds(rows)[j - 1];
      } else {
        assert r[i] == rows[i - 1] && r[j] == rows[j - 1];
      }
    }
  }

  /** Insertion sort into leaderboard order: a permutation of its input. */
  function Sort(rows: seq<Row>): (r: seq<Row>)
    ensures Ordered(r)
    ensures multiset(r) == multiset(rows)
    ensures |r| == |rows|
    ensures DistinctUsers(rows) ==> DistinctUsers(r)
  {
    if |rows| == 0 then []
    else
      var init := rows[..|rows| - 1];
      var x := rows[|rows| - 1];
      assert rows == init + [x];
      var s := Sort(init);
      NewUserAfterSort(init, x, s);
      Insert(x, s)
  }

  /** The last row's user, absent from the earlier rows, is absent from their sorted form. */
  lemma NewUserAfterSort(init: seq<Row>, x: Row, s: seq<Row>)
    requires multiset(s) == multiset(init)
    ensures DistinctUsers(init + [x]) ==> DistinctUsers(init) && x.userId !in UserIds(s)
  {
    var rows := init + [x];
    if DistinctUsers(rows) {
      assert forall i :: 0 <= i < |init| ==> init[i] == rows[i];
      forall i | 0 <= i < |s| ensures s[i].userId != x.userId {
        assert s[i] in multiset(init);
        var j :| 0 <= j < |init| && init[j] == s[i];
        assert rows[|init|] == x;
      }
    }
  }

  /** The leaderboard of category `cat`, joining results with the users table. */
  function Top(results: seq<Result>, users: seq<User>, cat: int): (r: seq<Row>)
    ensures |r| <= Limit
    ensures DistinctUsers(r)
    ensures Ordered(r)
    ensures forall i :: 0 <= i < |r| ==>
      IsGroupRow(results, Usernames(users), cat, r[i])
    ensures forall u :: u in Usernames(users) && HasAttempt(results, cat, u) && u !in UserIds(r) ==>
      |r| == Limit && forall i :: 0 <= i < |r| ==> Ranks(r[i], Aggregate(results, Usernames(users), cat, u))
  {
    var usernames := Usernames(users);
    var g := Grouped(results, usernames, cat);
    var s := Sort(g);
    var r := if |s| <= Limit then s else s[..Limit];
    PrefixKeepsShape(s, r);
    TopRowsAreGroups(results, usernames, cat, g, s, r);
    TopCompleteAll(results, usernames, cat, g, s, r);
    r
  }

  lemma PrefixKeepsShape(s: seq<Row>, r: seq<Row>)
    requires Ordered(s) && DistinctUsers(s)
    requires |r| <= |s| && r == s[..|r|]
    ensures Ordered(r) && DistinctUsers(r)
    ensures forall i :: 0 <= i < |r| ==> r[i] == s[i]
  {
  }

  lemma TopCompleteAll(results: seq<Result>, usernames: map<int, string>, cat: int, g: seq<Row>, s: seq<Row>, r: seq<Row>)
    requires g == Grouped(results, usernames, cat) && multiset(s) == multiset(g) && Ordered(s)
    requires r == if |s| <= Limit then s else s[..Limit]
    ensures forall u :: u in usernames && HasAttempt(results, cat, u) && u !in UserIds(r) ==>
      |r| == Limit && forall i :: 0 <= i < |r| ==> Ranks(r[i], Aggregate(results, usernames, cat, u))
  {
    forall u | u in usernames && HasAttempt(results, cat, u) && u !in UserIds(r)
      ensures |r| == Limit && forall i :: 0 <= i < |r| ==> Ranks(r[i], Aggregate(results, usernames, cat, u))
    {
      TopComplete(results, usernames, cat, g, s, r, u);
    }
  }

  lemma TopRowsAreGroups(results: seq<Result>, usernames: map<int, string>, cat: int, g: seq<Row>, s: seq<Row>, r: seq<Row>)
    requires g == Grouped(results, usernames, cat) && multiset(s) == multiset(g)
    requires |r| <= |s| && forall i :: 0 <= i < |r| ==> r[i] == s[i]
    ensures forall i :: 0 <= i < |r| ==>
      IsGroupRow(results, usernames, cat, r[i])
  {
    forall i | 0 <= i < |r|
      ensures IsGroupRow(results, usernames, cat, r[i])
    {
      assert s[i] in multiset(g);
      var j :| 0 <= j < |g| && g[j] == s[i];
    }
  }

  lemma TopComplete(results: seq<Result>, usernames: map<int, string>, cat: int, g: seq<Row>, s: seq<Row>, r: seq<Row>, u: int)
    requires g == Grouped(results, usernames, cat) && multiset(s) == multiset(g) && Ordered(s)
    requires r == if |s| <= Limit then s else s[..Limit]
    requires u in usernames && HasAttempt(results, cat, u) && u !in UserIds(r)
    ensures |r| == Limit && forall i :: 0 <= i < |r| ==> Ranks(r[i], Aggregate(results, usernames, cat, u))
  {
    var ids := UserIds(g);
    assert u in ids;
    var j :| 0 <= j < |ids| && ids[j] == u;
    var row := g[j];
    assert IsGroupRow(results, usernames, cat, row) && row.userId == u;
    assert row in multiset(g);
    BelowTheCut(s, r, row);
  }

  /** A row of an ordered list that did not make the cut ranks below every row that did. */
  lemma BelowTheCut(s: seq<Row>, r: seq<Row>, row: Row)
    requires Ordered(s) && row in s
    requires r == if |s| <= Limit then s else s[..Limit]
    requires row.userId !in UserIds(r)
    ensures |r| == Limit && forall i :: 0 <= i < |r| ==> Ranks(r[i], row)
  {
    var k :| 0 <= k < |s| && s[k] == row;
    assert k >= |r| by {
      assert forall i :: 0 <= i < |r| ==> UserIds(r)[i] == s[i].userId;
    }
    assert forall i :: 0 <= i < |r| ==> r[i] == s[i];
  }
}

=== FILE: options.dfy ===
/** Optional values: a JSON field that may be absent, a row a query may not find. */
module Options {

  datatype Option<T> = None | Some(value: T)

  /** What Python's `data.get(key, fallback)` yields: the value when present, else the fallback. */
  function ValueOr<T>(o: Option<T>, fallback: T): (r: T)
    ensures o.Some? ==> r == o.value
    ensures o.None? ==> r == fallback
  {
    if o.Some? then o.value else fallback
  }
}

=== FILE: quiz_nav.dfy ===
/**
  The quiz page's navigation state in frontend/js/quiz.js: the index of the
  displayed question (`currentQuestion`) and the chosen option per question
  index (`userAnswers`), the navigation handlers, the button flags set when a
  question is displayed, and the `{question_id: option}` object that
  `submitQuiz` builds for the backend. Only the number of loaded questions and
  their ids matter here.
*/
module QuizNav {
  import opened Options
  import opened Strings
  import Scoring
  import Store

  datatype Nav = Nav(current: int, answers: map<int, string>)

  /** The page state before the first question is shown. */
  const Initial: Nav := Nav(0, map[])

  /** The state the handlers keep: the index is in range once questions are
      loaded, and answers are recorded only at such indices. */
  predicate Valid(n: nat, st: Nav) {
    && 0 <= st.current
    && (n == 0 ==> st.current == 0)
    && (n > 0 ==> st.current < n && forall k :: k in st.answers ==> 0 <= k < n)
  }

  /** The state part of `displayQuestion(index)`: an index outside
      [0, n) is ignored. */
  function Display(n: nat, st: Nav, index: int): (r: Nav)
    ensures r.answers == st.answers
    ensures !(0 <= index < n) ==> r == st
    ensures 0 <= index < n ==> r.current == index
  {
    if index < 0 || index >= n then st else st.(current := index)
  }

  /** `selectAnswer(answer)`: records the option at the current index and
      redisplays the same question. */
  function SelectAnswer(n: nat, st: Nav, answer: string): (r: Nav)
    ensures r.current == st.current
    ensures st.current in r.answers && r.answers[st.current] == answer
    ensures r.answers.Keys == st.answers.Keys + {st.current}
    ensures forall k :: k in st.answers && k != st.current ==> r.answers[k] == st.answers[k]
  {
    Display(n, st.(answers := st.answers[st.current := answer]), st.current)
  }

  /** `goToPreviousQuestion`. */
  function Previous(n: nat, st: Nav): (r: Nav)
    ensures r.answers == st.answers
    ensures 0 < st.current <= n ==> r.current == st.current - 1
    ensures !(0 < st.current <= n) ==> r == st
  {
    if st.current > 0 then Display(n, st, st.current - 1) else st
  }

  /** `goToNextQuestion`. */
  function Next(n: nat, st: Nav): (r: Nav)
    ensures r.answers == st.answers
    ensures -1 <= st.current < n - 1 ==> r.current == st.current + 1
    ensures !(-1 <= st.current < n - 1) ==> r == st
  {
    if st.current < n - 1 then Display(n, st, st.current + 1) else st
  }

  /** The user interactions the page reacts to. */
  datatype Event = Show(index: int) | Select(answer: string) | Prev | NextQ

  /** One interaction: only choosing an option changes the answers, and
      choosing one never moves to another question. */
  function Step(n: nat, st: Nav, e: Event): (r: Nav)
    ensures !e.Select? ==> r.answers == st.answers
    ensures e.Select? ==> r.current == st.current && r.answers == st.answers[st.current := e.answer]
    ensures e.Show? && 0 <= e.index < n ==> r.current == e.index
    ensures e.Show? && !(0 <= e.index < n) ==> r == st
    ensures e.Prev? && 0 < st.current <= n ==> r.current == st.current - 1
    ensures e.NextQ? && -1 <= st.current < n - 1 ==> r.current == st.current + 1
  {
    match e
    case Show(i) => Display(n, st, i)
    case Select(a) => SelectAnswer(n, st, a)
    case Prev => Previous(n, st)
    case NextQ => Next(n, st)
  }

  /** Every handler keeps the state valid. */
  lemma StepValid(n: nat, st: Nav, e: Event)
    requires Valid(n, st)
    ensures Valid(n, Step(n, st, e))
  {
  }

  /** The state after a sequence of interactions. */
  function Run(n: nat, st: Nav, events: seq<Event>): (r: Nav)
    requires Valid(n, st)
    ensures Valid(n, r)
    decreases |events|
  {
    if |events| == 0 then st
    else
      StepValid(n, st, events[0]);
      Run(n, Step(n, st, events[0]), events[1..])
  }

  /** From the initial state, whatever the user does, the displayed index stays
      within the loaded questions and answers sit at question indices. */
  lemma {:induction false} RunInBounds(n: nat, events: seq<Event>)
    requires n > 0
    ensures 0 <= Run(n, Initial, events).current < n
    ensures forall k :: k in Run(n, Initial, events).answers ==> 0 <= k < n
  {
  }

  /** Previous undoes Next, and Next undoes Previous, away from the ends. */
  lemma PreviousNextInverse(n: nat, st: Nav)
    requires Valid(n, st)
    ensures st.current < n - 1 ==> Previous(n, Next(n, st)) == st
    ensures st.current > 0 ==> Next(n, Previous(n, st)) == st
  {
  }

  /** Button flags set by `displayQuestion(index)`. */
  datatype Buttons = Buttons(prevDisabled: bool, nextHidden: bool, submitHidden: bool)

  function ButtonsFor(n: nat, index: int): (b: Buttons)
    requires 0 <= index < n
    ensures b.prevDisabled <==> index == 0
    ensures b.nextHidden <==> index == n - 1
    ensures b.nextHidden != b.submitHidden
  {
    Buttons(index == 0, index == n - 1, index != n - 1)
  }

  /** The buttons tell the truth: Prev is disabled exactly when going back is
      a no-op, and Next is hidden (Submit shown) exactly when going forward is. */
  lemma ButtonsMatchNavigation(n: nat, st: Nav)
    requires n > 0 && Valid(n, st)
    ensures ButtonsFor(n, st.current).prevDisabled <==> Previous(n, st) == st
    ensures ButtonsFor(n, st.current).nextHidden <==> Next(n, st) == st
    ensures !ButtonsFor(n, st.current).submitHidden <==> Next(n, st) == st
  {
  }

  // ----- the submitted answer object -----

  /** Position `i` has a truthy answer: `userAnswers[i]` is neither undefined nor empty. */
  predicate Answered(answers: map<int, string>, i: int) {
    Truthy(if i in answers then Some(answers[i]) else None)
  }

  /** `formattedAnswers`: for each loaded question in order, its id maps to
      the answer at its position when that answer is truthy (a later position
      with the same id overwrites an earlier one). */
  function FormattedAnswers(ids: seq<int>, answers: map<int, string>): (r: map<int, string>)
    ensures forall k :: k in r <==> exists i :: 0 <= i < |ids| && ids[i] == k && Answered(answers, i)
  {
    PrefixKeys(ids, answers, |ids|);
    FormattedPrefix(ids, answers, |ids|)
  }

  /** The object after the `forEach` has visited the first `n` questions. */
  function FormattedPrefix(ids: seq<int>, answers: map<int, string>, n: nat): map<int, string>
    requires n <= |ids|
  {
    if n == 0 then map[]
    else
      var m := FormattedPrefix(ids, answers, n - 1);
      if Answered(answers, n - 1) then m[ids[n - 1] := answers[n - 1]] else m
  }

  /** The ids of the answered positions among the first `n` are the keys. */
  lemma {:induction false} PrefixKeys(ids: seq<int>, answers: map<int, string>, n: nat)
    requires n <= |ids|
    ensures forall k :: k in FormattedPrefix(ids, answers, n) <==> exists i :: 0 <= i < n && ids[i] == k && Answered(answers, i)
  {
    if n > 0 {
      PrefixKeys(ids, answers, n - 1);
    }
  }

  /** Position `i` is the last answered position before `n` of the questions with id `k`. */
  predicate LastAnsweredAt(ids: seq<int>, answers: map<int, string>, n: nat, k: int, i: int) {
    && 0 <= i < n <= |ids| && ids[i] == k && Answered(answers, i)
    && forall j :: i < j < n ==> ids[j] != k || !Answered(answers, j)
  }

  /** There are at most as many entries as loaded questions. */
  lemma FormattedAnswersBound(ids: seq<int>, answers: map<int, string>)
    ensures |FormattedAnswers(ids, answers)| <= |ids|
  {
    PrefixBound(ids, answers, |ids|);
  }

  lemma {:induction false} PrefixBound(ids: seq<int>, answers: map<int, string>, n: nat)
    requires n <= |ids|
    ensures |FormattedPrefix(ids, answers, n)| <= n
  {
    if n > 0 {
      PrefixBound(ids, answers, n - 1);
      var m := FormattedPrefix(ids, answers, n - 1);
      if Answered(answers, n - 1) {
        assert m[ids[n - 1] := answers[n - 1]].Keys == m.Keys + {ids[n - 1]};
      }
    }
  }

  /** Each entry holds the answer of the last answered position with that id. */
  lemma FormattedAnswersValues(ids: seq<int>, answers: map<int, string>, k: int)
    requires k in FormattedAnswers(ids, answers)
    ensures exists i :: LastAnsweredAt(ids, answers, |ids|, k, i) && FormattedAnswers(ids, answers)[k] == answers[i]
  {
    PrefixValues(ids, answers, |ids|, k);
  }

  lemma {:induction false} PrefixValues(ids: seq<int>, answers: map<int, string>, n: nat, k: int)
    requires n <= |ids| && k in FormattedPrefix(ids, answers, n)
    ensures exists i :: LastAnsweredAt(ids, answers, n, k, i) && FormattedPrefix(ids, answers, n)[k] == answers[i]
  {
    var m := FormattedPrefix(ids, answers, n - 1);
    PrefixKeys(ids, answers, n);
    if Answered(answers, n - 1) && k == ids[n - 1] {
      assert LastAnsweredAt(ids, answers, n, k, n - 1);
    } else {
      PrefixValues(ids, answers, n - 1, k);
      var i :| LastAnsweredAt(ids, answers, n - 1, k, i) && m[k] == answers[i];
      assert LastAnsweredAt(ids, answers, n, k, i);
    }
  }

  /** With distinct question ids the answer object has exactly one entry per
      answered position. */
  lemma FormattedAnswersSize(ids: seq<int>, answers: map<int, string>)
    requires forall i, j :: 0 <= i < j < |ids| ==> ids[i] != ids[j]
    ensures |FormattedAnswers(ids, answers)| == |AnsweredPositions(|ids|, answers)|
  {
    PrefixSize(ids, answers, |ids|);
  }

  lemma {:induction false} PrefixSize(ids: seq<int>, answers: map<int, string>, n: nat)
    requires n <= |ids|
    requires forall i, j :: 0 <= i < j < |ids| ==> ids[i] != ids[j]
    ensures |FormattedPrefix(ids, answers, n)| == |AnsweredPositions(n, answers)|
  {
    if n == 0 {
      assert AnsweredPositions(0, answers) == {};
    } else {
      PrefixSize(ids, answers, n - 1);
      var m := FormattedPrefix(ids, answers, n - 1);
      AnsweredPositionsStep(n - 1, answers);
      if Answered(answers, n - 1) {
        assert FormattedPrefix(ids, answers, n) == m[ids[n - 1] := answers[n - 1]];
        FreshId(ids, answers, n - 1);
        AddNewKey(m, ids[n - 1], answers[n - 1]);
      } else {
        assert FormattedPrefix(ids, answers, n) == m;
      }
    }
  }

  /** With distinct ids, the next question's id is not in the object yet. */
  lemma FreshId(ids: seq<int>, answers: map<int, string>, n: nat)
    requires n < |ids|
    requires forall i, j :: 0 <= i < j < |ids| ==> ids[i] != ids[j]
    ensures ids[n] !in FormattedPrefix(ids, answers, n)
  {
    PrefixKeys(ids, answers, n);
  }

  lemma AddNewKey(m: map<int, string>, k: int, v: string)
    requires k !in m
    ensures |m[k := v]| == |m| + 1
  {
    assert m[k := v].Keys == m.Keys + {k};
  }

  lemma AnsweredPositionsStep(n: nat, answers: map<int, string>)
    ensures Answered(answers, n) ==> AnsweredPositions(n + 1, answers) == AnsweredPositions(n, answers) + {n}
    ensures Answered(answers, n) ==> n !in AnsweredPositions(n, answers)
    ensures !Answered(answers, n) ==> AnsweredPositions(n + 1, answers) == AnsweredPositions(n, answers)
  {
  }

  /** The positions below `n` with a truthy answer. */
  function AnsweredPositions(n: nat, answers: map<int, string>): set<int> {
    set i | 0 <= i < n && Answered(answers, i)
  }

  /** The map view of a submitted answer list. */
  function AsMap(pairs: Scoring.Answers): (m: map<int, string>)
    ensures m.Keys == set p | p in pairs :: p.0
  {
    if |pairs| == 0 then map[]
    else
      var last := pairs[|pairs| - 1];
      var init := pairs[..|pairs| - 1];
      assert pairs == init + [last];
      AsMap(init)[last.0 := last.1]
  }

  predicate DistinctKeys(pairs: Scoring.Answers) {
    forall i, j :: 0 <= i < j < |pairs| ==> pairs[i].0 != pairs[j].0
  }

  /** Whatever order the JSON object is serialized in, the backend's
      `total_questions` for the submitted answers equals the number of entries of
      `formattedAnswers`, and so is at most the number of loaded questions. */
  lemma {:induction false} SubmittedTotal(
    ids: seq<int>, answers: map<int, string>, pairs: Scoring.Answers,
    questions: seq<Store.Question>, results: seq<Store.Result>, user: int, cat: int, time: int, now: int)
    requires DistinctKeys(pairs) && AsMap(pairs) == FormattedAnswers(ids, answers)
    ensures var out := Scoring.SubmitQuiz(questions, results, true, user, cat, Some(pairs), Some(time), now);
            out.0[|results|].totalQuestions == |FormattedAnswers(ids, answers)| <= |ids|
  {
    DistinctKeysSize(pairs);
    FormattedAnswersBound(ids, answers);
  }

  lemma {:induction false} DistinctKeysSize(pairs: Scoring.Answers)
    requires DistinctKeys(pairs)
    ensures |AsMap(pairs)| == |pairs|
  {
    if |pairs| > 0 {
      var last := pairs[|pairs| - 1];
      var init := pairs[..|pairs| - 1];
      assert pairs == init + [last];
      DistinctKeysSize(init);
      assert last.0 !in AsMap(init);
    }
  }
}

=== FILE: scoring.dfy ===
/**
  Quiz submission (`submit_quiz` in backend/app.py): the score of a submitted
  answer map against the question table, and the Result row the submission
  writes for the acting user.
*/
module Scoring {
  import opened Options
  import opened Store
  import opened Http

  /** The submitted `{question_id: option}` object, in the order the JSON body
      lists it (Python dicts keep that order). */
  type Answers = seq<(int, string)>

  /** What one answer entry adds to the score: the question's points when the
      id is found and the submitted option equals the stored correct one. */
  function Contribution(questions: seq<Question>, entry: (int, string)): int
  {
    var q := FindQuestion(questions, entry.0);
    if q.Some? && entry.1 == q.value.correctAnswer then q.value.points else 0
  }

  /** The score of a whole answer list, accumulated from the first entry on. */
  function ScoreOf(questions: seq<Question>, answers: Answers): int
  {
    if |answers| == 0 then 0
    else ScoreOf(questions, answers[..|answers| - 1]) + Contribution(questions, answers[|answers| - 1])
  }

  /** The scoring loop of `submit_quiz`: `total_questions` is the size of the
      map, the score sums the points of the correctly answered known ids. */
  method ComputeScore(questions: seq<Question>, answers: Answers) returns (score: int, total: nat)
    ensures total == |answers|
    ensures score == ScoreOf(questions, answers)
  {
    score := 0;
    total := |answers|;
    var i := 0;
    while i < |answers|
      invariant 0 <= i <= |answers|
      invariant score == ScoreOf(questions, answers[..i])
    {
      assert answers[..i + 1][..i] == answers[..i];
      var q := FindQuestion(questions, answers[i].0);
      if q.Some? && answers[i].1 == q.value.correctAnswer {
        score := score + q.value.points;
      }
      i := i + 1;
    }
    assert answers[..i] == answers;
  }

  /** The score of two concatenated answer lists is the sum of their scores. */
  lemma {:induction false} ScoreOfConcat(questions: seq<Question>, a: Answers, b: Answers)
    ensures ScoreOf(questions, a + b) == ScoreOf(questions, a) + ScoreOf(questions, b)
    decreases |b|
  {
    if |b| == 0 {
      assert a + b == a;
    } else {
      assert (a + b)[..|a + b| - 1] == a + b[..|b| - 1];
      ScoreOfConcat(questions, a, b[..|b| - 1]);
    }
  }

  /** Iteration order does not matter: any reordering of the entries scores the same. */
  lemma {:induction false} ScoreOrderIndependent(questions: seq<Question>, a: Answers, b: Answers)
    requires multiset(a) == multiset(b)
    ensures ScoreOf(questions, a) == ScoreOf(questions, b)
    decreases |a|
  {
    if |a| == 0 {
      assert |b| == |multiset(b)| == 0;
    } else {
      var x := a[|a| - 1];
      var a' := a[..|a| - 1];
      assert a == a' + [x];
      assert x in multiset(b);
      var i :| 0 <= i < |b| && b[i] == x;
      var b' := b[..i] + b[i + 1..];
      assert b == b[..i] + [x] + b[i + 1..];
      assert multiset(b') == multiset(b) - multiset{x};
      assert multiset(a') == multiset(a) - multiset{x};
      ScoreOrderIndependent(questions, a', b');
      ScoreOfConcat(questions, b[..i] + [x], b[i + 1..]);
      ScoreOfConcat(questions, b[..i], [x]);
      ScoreOfConcat(questions, b[..i], b[i + 1..]);
      assert ScoreOf(questions, [x]) == Contribution(questions, x) by {
        assert [x][..0] == [];
      }
    }
  }

  predicate Known(questions: seq<Question>, entry: (int, string)) {
    FindQuestion(questions, entry.0).Some?
  }

  /** The entries whose question id exists, in order. */
  function KnownEntries(questions: seq<Question>, answers: Answers): (r: Answers)
    ensures |r| <= |answers|
    ensures forall e :: e in r <==> e in answers && Known(questions, e)
  {
    if |answers| == 0 then []
    else
      var last := answers[|answers| - 1];
      var r := KnownEntries(questions, answers[..|answers| - 1]);
      if Known(questions, last) then r + [last] else r
  }

  /** Unknown ids are skipped: dropping them leaves the score unchanged,
      while they still count toward `total_questions`. */
  lemma {:induction false} UnknownIdsSkipped(questions: seq<Question>, answers: Answers)
    ensures ScoreOf(questions, KnownEntries(questions, answers)) == ScoreOf(questions, answers)
  {
    if |answers| > 0 {
      var last := answers[|answers| - 1];
      var init := answers[..|answers| - 1];
      UnknownIdsSkipped(questions, init);
      if Known(questions, last) {
        var r := KnownEntries(questions, init);
        assert (r + [last])[..|r + [last]| - 1] == r;
      }
    }
  }

  /** One more entry adds exactly that question's points when it is answered
      correctly, and nothing when the option is wrong or the id is unknown. */
  lemma AnswerEffect(questions: seq<Question>, answers: Answers, id: int, option: string)
    ensures var q := FindQuestion(questions, id);
      ScoreOf(questions, answers + [(id, option)]) ==
        ScoreOf(questions, answers) + (if q.Some? && option == q.value.correctAnswer then q.value.points else 0)
  {
    assert (answers + [(id, option)])[..|answers|] == answers;
  }

  /** What `submit_quiz` sends back. `percentage` is not modelled: a score with
      a zero `total_questions` faults instead. */
  datatype Response =
    | Scored(score: int, totalQuestions: nat)
    | ServerError(reply: Reply)

  /** `submit_quiz` for the user the token gate passed in (`currentUser`).
      A missing `answers` field faults at `len(None)` before anything is written;
      otherwise the Result row is inserted and committed, and only then is the
      percentage computed, which faults on an empty map. */
  function SubmitQuiz(
    questions: seq<Question>, results: seq<Result>, connected: bool,
    currentUser: int, categoryId: int, answers: Option<Answers>, timeTaken: Option<int>, now: int)
    : (r: (seq<Result>, Response))
    ensures !connected ==> r == (results, ServerError(DatabaseUnavailable))
    ensures connected && answers.None? ==> r.0 == results && r.1.ServerError?
    ensures connected && answers.Some? ==>
      && r.0 == results + [Result(currentUser, categoryId, ScoreOf(questions, answers.value),
                                 |answers.value|, ValueOr(timeTaken, 0), now)]
      && (r.1.Scored? <==> |answers.value| > 0)
      && (r.1.Scored? ==> r.1 == Scored(ScoreOf(questions, answers.value), |answers.value|))
  {
    if !connected then (results, ServerError(DatabaseUnavailable))
    else if answers.None? then (results, ServerError(Reply(500, "object of type 'NoneType' has no len()")))
    else
      var a := answers.value;
      var score := ScoreOf(questions, a);
      var total := |a|;
      var row := Result(currentUser, categoryId, score, total, ValueOr(timeTaken, 0), now);
      var stored := results + [row];
      if total == 0 then (stored, ServerError(Reply(500, "division by zero")))
      else (stored, Scored(score, total))
  }

  /** The stored row belongs to the acting user whatever else the request
      carries: two submissions differing only in who is acting store rows that
      differ only in `userId`. */
  lemma SubmissionAttributedToActingUser(
    questions: seq<Question>, results: seq<Result>, u1: int, u2: int,
    categoryId: int, answers: Answers, timeTaken: Option<int>, now: int)
    ensures var r1 := SubmitQuiz(questions, results, true, u1, categoryId, Some(answers), timeTaken, now).0;
            var r2 := SubmitQuiz(questions, results, true, u2, categoryId, Some(answers), timeTaken, now).0;
            |r1| == |r2| == |results| + 1
            && r1[|results|].userId == u1 && r2[|results|].userId == u2
            && r1[|results|].(userId := u2) == r2[|results|]
  {
  }

  /** A submission with one correctly answered known question and one unknown
      id: `total_questions` is 2 and only the known question scores. */
  lemma KnownAndUnknownExample(q: Question, unknown: int, now: int)
    requires q.id != unknown
    ensures var answers := [(q.id, q.correctAnswer), (unknown, "a")];
            SubmitQuiz([q], [], true, 7, q.categoryId, Some(answers), None, now).1 == Scored(q.points, 2)
  {
    var answers := [(q.id, q.correctAnswer), (unknown, "a")];
    assert answers[..1] == [(q.id, q.correctAnswer)];
    assert answers[..1][..0] == [];
    assert FindQuestion([q], q.id) == Some(q);
    assert FindQuestion([q], unknown) == None by {
      assert FindQuestion([q][1..], unknown) == None;
    }
    assert Contribution([q], answers[0]) == q.points;
    assert Contribution([q], answers[1]) == 0;
    assert ScoreOf([q], answers[..1]) == q.points;
    assert ScoreOf([q], answers) == q.points;
  }
}

=== FILE: store.dfy ===
/**
  Rows of the quiz application's relational store (users, categories,
  questions, results), held in memory. Each table is a sequence in insertion
  order; a query that `fetchone()`s takes the first matching row.
*/
module Store {
  import opened Options

  /** The role a freshly registered user gets from the table default. */
  const DefaultRole: string := "user"
  const AdminRole: string := "admin"

  datatype User = User(id: int, username: string, email: string, passwordHash: string, role: string)

  datatype Category = Category(id: int, name: string, description: string)

  /** A question: one of four options `a`–`d` is correct; `points` defaults to 1. */
  datatype Question = Question(
    id: int, categoryId: int, text: string,
    optionA: string, optionB: string, optionC: string, optionD: string,
    correctAnswer: string, points: int)

  /** One submitted attempt; `completedAt` is the row's insertion timestamp. */
  datatype Result = Result(
    userId: int, categoryId: int, score: int, totalQuestions: int,
    timeTaken: int, completedAt: int)

  /** `SELECT … FROM users WHERE id = %s`, first row. */
  function FindUser(users: seq<User>, id: int): (r: Option<User>)
    ensures r.Some? <==> exists i :: 0 <= i < |users| && users[i].id == id
    ensures r.Some? ==> r.value in users && r.value.id == id
    ensures r.Some? ==> exists i :: 0 <= i < |users| && users[i] == r.value
                          && forall j :: 0 <= j < i ==> users[j].id != id
  {
    if |users| == 0 then None
    else if users[0].id == id then Some(users[0])
    else
      var r := FindUser(users[1..], id);
      assert forall j :: 0 <= j < |users| - 1 ==> users[1..][j] == users[j + 1];
      r
  }

  /** The `username` column as a join on `users.id` sees it: each id present
      in the table maps to the username of its first row. */
  function Usernames(users: seq<User>): (m: map<int, string>)
    ensures forall id :: id in m <==> FindUser(users, id).Some?
    ensures forall id :: id in m ==> m[id] == FindUser(users, id).value.username
  {
    if |users| == 0 then map[]
    else Usernames(users[1..])[users[0].id := users[0].username]
  }

  /** `SELECT correct_answer, points FROM questions WHERE id = %s`, first row. */
  function FindQuestion(questions: seq<Question>, id: int): (r: Option<Question>)
    ensures r.Some? <==> exists i :: 0 <= i < |questions| && questions[i].id == id
    ensures r.Some? ==> r.value in questions && r.value.id == id
  {
    if |questions| == 0 then None
    else if questions[0].id == id then Some(questions[0])
    else FindQuestion(questions[1..], id)
  }
}

=== FILE: strings.dfy ===
/**
  The few string operations the quiz application relies on: Python's
  `str.split(sep)` with an explicit one-character separator, JavaScript's
  `Number.prototype.toString()` for integers, `String.prototype.padStart`,
  and decimal parsing (the inverse of the former, used to state round trips).
*/
module Strings {
  import opened Options

  /** Truthiness of an optional string field in both Python and JavaScript:
      an absent value (`None` / `undefined` / `null`) and the empty string are falsy. */
  predicate Truthy(v: Option<string>) {
    v.Some? && v.value != ""
  }

  /** Number of occurrences of `c` in `s`. */
  function Count(s: string, c: char): nat {
    if |s| == 0 then 0 else (if s[0] == c then 1 else 0) + Count(s[1..], c)
  }

  lemma {:induction false} CountZero(s: string, c: char)
    ensures Count(s, c) == 0 <==> c !in s
  {
    if |s| > 0 {
      CountZero(s[1..], c);
      assert s == [s[0]] + s[1..];
    }
  }

  /** Python's `s.split(sep)` for a one-character `sep`: every occurrence of
      `sep` ends a field, so consecutive separators yield empty fields and the
      result always has at least one field. */
  function Split(s: string, sep: char): (r: seq<string>)
    ensures |r| == Count(s, sep) + 1
    ensures forall i :: 0 <= i < |r| ==> sep !in r[i]
    decreases |s|
  {
    if |s| == 0 then [""]
    else
      var rest := Split(s[1..], sep);
      if s[0] == sep then [""] + rest
      else [[s[0]] + rest[0]] + rest[1..]
  }

  /** The first field is the text before the first separator, or all of `s`. */
  lemma {:induction false} FirstField(s: string, sep: char)
    ensures var f := Split(s, sep)[0];
      |f| <= |s| && s[..|f|] == f && (|f| == |s| || s[|f|] == sep)
    decreases |s|
  {
    if |s| > 0 && s[0] != sep {
      FirstField(s[1..], sep);
      var g := Split(s[1..], sep)[0];
      assert Split(s, sep)[0] == [s[0]] + g;
      assert s[..|g| + 1] == [s[0]] + s[1..][..|g|];
    }
  }

  /** Python's `sep.join(parts)`. */
  function Join(parts: seq<string>, sep: char): string
  {
    if |parts| == 0 then ""
    else if |parts| == 1 then parts[0]
    else parts[0] + [sep] + Join(parts[1..], sep)
  }

  /** Splitting and joining again gives back the original string. */
  lemma {:induction false} JoinSplit(s: string, sep: char)
    ensures Join(Split(s, sep), sep) == s
  {
    if |s| > 0 {
      var rest := Split(s[1..], sep);
      JoinSplit(s[1..], sep);
      if s[0] == sep {
        assert Split(s, sep) == [""] + rest;
        assert s == [sep] + s[1..];
      } else {
        assert Split(s, sep) == [[s[0]] + rest[0]] + rest[1..];
        JoinExtendHead(s[0], rest, sep);
        assert s == [s[0]] + s[1..];
      }
    }
  }

  /** Prepending a character to the first field prepends it to the joined string. */
  lemma JoinExtendHead(c: char, parts: seq<string>, sep: char)
    requires |parts| >= 1
    ensures Join([[c] + parts[0]] + parts[1..], sep) == [c] + Join(parts, sep)
  {
    var r := [[c] + parts[0]] + parts[1..];
    if |parts| == 1 {
      assert r == [[c] + parts[0]];
    } else {
      assert r[1..] == parts[1..];
    }
  }

  /** A string without the separator is a single field. */
  lemma {:induction false} SplitNoSeparator(s: string, sep: char)
    requires sep !in s
    ensures Split(s, sep) == [s]
  {
    CountZero(s, sep);
    if |s| > 0 {
      assert sep !in s[1..] by {
        forall i | 0 <= i < |s[1..]| ensures s[1..][i] != sep {
          assert s[1..][i] == s[i + 1];
        }
      }
      SplitNoSeparator(s[1..], sep);
      assert [s[0]] + s[1..] == s;
    }
  }

  /** A separator-free field followed by the separator splits off as the first field. */
  lemma {:induction false} SplitAfterField(a: string, sep: char, rest: string)
    requires sep !in a
    ensures Split(a + [sep] + rest, sep) == [a] + Split(rest, sep)
    decreases |a|
  {
    var s := a + [sep] + rest;
    if |a| == 0 {
      assert s == [sep] + rest;
      assert s[1..] == rest;
    } else {
      assert s[0] == a[0];
      assert s[1..] == a[1..] + [sep] + rest;
      assert sep !in a[1..] by {
        forall i | 0 <= i < |a[1..]| ensures a[1..][i] != sep {
          assert a[1..][i] == a[i + 1];
        }
      }
      SplitAfterField(a[1..], sep, rest);
      assert [a[0]] + a[1..] == a;
    }
  }

  /** Joining separator-free fields and splitting again gives back the fields. */
  lemma {:induction false} SplitJoin(parts: seq<string>, sep: char)
    requires |parts| >= 1
    requires forall i :: 0 <= i < |parts| ==> sep !in parts[i]
    ensures Split(Join(parts, sep), sep) == parts
  {
    if |parts| == 1 {
      SplitNoSeparator(parts[0], sep);
    } else {
      SplitJoin(parts[1..], sep);
      SplitAfterField(parts[0], sep, Join(parts[1..], sep));
      assert [parts[0]] + parts[1..] == parts;
    }
  }

  // ----- decimal text -----

  predicate IsDigit(c: char) {
    '0' <= c <= '9'
  }

  predicate AllDigits(s: string) {
    forall i :: 0 <= i < |s| ==> IsDigit(s[i])
  }

  function DigitChar(d: nat): (c: char)
    requires d < 10
    ensures IsDigit(c)
  {
    "0123456789"[d]
  }

  function DigitValue(c: char): (d: nat)
    requires IsDigit(c)
    ensures d < 10
  {
    c as int - '0' as int
  }

  /** `n.toString()` for a non-negative integer: decimal digits, no leading zeros. */
  function Decimal(n: nat): (r: string)
    ensures 1 <= |r|
    ensures AllDigits(r)
    ensures n < 10 <==> |r| == 1
    ensures |r| > 1 ==> r[0] != '0'
  {
    if n < 10 then [DigitChar(n)] else Decimal(n / 10) + [DigitChar(n % 10)]
  }

  /** `i.toString()` for any integer: a minus sign before the digits of a negative number. */
  function IntToString(i: int): (r: string)
    ensures i >= 0 ==> AllDigits(r) && ParseDecimal(r) == i && (|r| > 1 ==> r[0] != '0')
    ensures i < 0 ==> |r| >= 2 && r[0] == '-' && AllDigits(r[1..]) && ParseDecimal(r[1..]) == -i
  {
    if i >= 0 then
      ParseDecimalInverse(i);
      Decimal(i)
    else
      ParseDecimalInverse(-i);
      assert ("-" + Decimal(-i))[1..] == Decimal(-i);
      "-" + Decimal(-i)
  }

  /** The value of a string of decimal digits (0 for the empty string). */
  function ParseDecimal(s: string): nat
    requires AllDigits(s)
  {
    if |s| == 0 then 0 else ParseDecimal(s[..|s| - 1]) * 10 + DigitValue(s[|s| - 1])
  }

  /** Parsing a rendered number gives the number back. */
  lemma {:induction false} ParseDecimalInverse(n: nat)
    ensures ParseDecimal(Decimal(n)) == n
  {
    if n >= 10 {
      var r := Decimal(n);
      assert r[..|r| - 1] == Decimal(n / 10);
      ParseDecimalInverse(n / 10);
    }
  }

  /** Leading zeros do not change the parsed value. */
  lemma {:induction false} ParseLeadingZeros(z: string, s: string)
    requires forall i :: 0 <= i < |z| ==> z[i] == '0'
    requires AllDigits(s)
    ensures AllDigits(z + s)
    ensures ParseDecimal(z + s) == ParseDecimal(s)
    decreases |s|
  {
    var t := z + s;
    assert AllDigits(t) by {
      forall i | 0 <= i < |t| ensures IsDigit(t[i]) {
        if i < |z| { assert t[i] == z[i]; } else { assert t[i] == s[i - |z|]; }
      }
    }
    if |s| == 0 {
      assert t == z;
      ParseZeros(z);
    } else {
      assert t[..|t| - 1] == z + s[..|s| - 1];
      ParseLeadingZeros(z, s[..|s| - 1]);
    }
  }

  lemma {:induction false} ParseZeros(z: string)
    requires forall i :: 0 <= i < |z| ==> z[i] == '0'
    ensures AllDigits(z)
    ensures ParseDecimal(z) == 0
  {
    if |z| > 0 {
      ParseZeros(z[..|z| - 1]);
    }
  }

  /** The number of digits `Decimal` produces below 100 and from 100 on. */
  lemma DecimalWidth(n: nat)
    ensures 10 <= n < 100 ==> |Decimal(n)| == 2
    ensures n >= 100 ==> |Decimal(n)| >= 3
  {
    if n >= 10 {
      assert |Decimal(n)| == |Decimal(n / 10)| + 1;
    }
  }

  /** `c` repeated `k` times. */
  function Repeat(c: char, k: nat): (r: string)
    ensures |r| == k
    ensures forall i :: 0 <= i < k ==> r[i] == c
  {
    if k == 0 then "" else [c] + Repeat(c, k - 1)
  }

  /** JavaScript's `s.padStart(width, fill)`: fills on the left up to `width`
      characters and never shortens a longer string. */
  function PadStart(s: string, width: nat, fill: char): (r: string)
    ensures |r| == if |s| >= width then |s| else width
    ensures r[|r| - |s|..] == s
    ensures forall i :: 0 <= i < |r| - |s| ==> r[i] == fill
  {
    if |s| >= width then s else Repeat(fill, width - |s|) + s
  }
}
